=== FILE: README.md ===
# Daily task tracker — a Dafny model

This project models the client side of a daily-task tracker built on React and Supabase.

- A signed-in user keeps a list of tasks and ticks them off per day in a ten-day grid.
- The user writes one journal entry per day.
- Progress shows in a seven-day chart, a monthly calendar with statistics and a journal archive grouped by month.
- A small rocket mini-game sits on the dashboard.

The model covers these parts:

- The data-access layer (`src/lib/api.ts`): auth check, task and completion queries, the completion toggle, the progress computation and journal upsert.
- The dashboard's state and handlers, and the components it feeds: task grid, today's journal editor, progress chart, monthly tracker and journal archive.
- The top-level view selector.
- The sign-in form.
- The game's step rules.

## How the model is built

- **Dates.** Dates are day ordinals: day 0 is 1970-01-01, a Thursday.
  - `Calendar` builds the proleptic Gregorian calendar from them: days per month, day ordinal ↔ (year, month, day), weekdays, and month navigation.
  - `IsoDates` builds the `YYYY-MM-DD` strings the application compares with `<` and `===`. It proves that string order equals date order.
- **Database tables.** Supabase tables are plain values: a `seq` of rows, or a `map` for the journals keyed on (user, date). The session is an `Option`, so every call that needs a user has a "Not authenticated" path.
- **Completion maps.** A task's completion map is keyed by `DateKey`, which is either an ISO date string or a locale-formatted date string. That makes visible which spelling each component writes and reads.
- **Integer rounding.** `Math.round` of a non-negative quotient becomes exact integer arithmetic (`Rounding.RoundDiv`).
- **Real-valued quantities.** The calendar's completion rate and the game's positions are Dafny `real`s.

## Behaviour worth knowing

- `getProgress` with `start` after `end` returns an empty list rather than an error.
- Toggling a completion flips the row's `completed` flag (update), or inserts a completed row. It never deletes a row.
- For a month that lies wholly in the future, the monthly statistics cover the whole month.
- The sign-up screen reports whether e-mail verification is pending, but the view selector ignores that report (see Findings).

## Model

| member | source | states |
|---|---|---|
| Api.GetUserId | src/lib/api.ts:205-215 | fails with NotAuthenticated exactly when there is no session or no user in it, otherwise returns the session's user |
| Api.CreateTask | src/lib/api.ts:229-239 | without a user nothing is written and the result is NotAuthenticated; with one, an insert the backend refuses returns its error, and an accepted insert appends a single row owned by that user and carrying the title |
| Api.DeleteTask | src/lib/api.ts:241-250 | the remaining rows are exactly those whose id differs, each as often as before; the session is not consulted |
| Api.NextDayIsCalendarSuccessor | src/lib/api.ts:256-260 | `nextDay` yields the calendar date after its argument, across month and year ends |
| Api.QueryRangeInclusive | src/lib/api.ts:262-270 | the `>= start` and `< nextDay(end)` filter selects exactly the dates from start to end inclusive |
| Api.GetCompletions | src/lib/api.ts:262-270 | a row is returned iff it is in the table and its date lies in the inclusive range |
| Api.QueryKeepsCounts | src/lib/api.ts:262-270 | for any day in the range, the number of completed rows is the same in the query result as in the table |
| Api.TallyCounts | src/lib/api.ts:319-325 | the per-date counter ends at its initial value plus the number of completed rows for that date |
| Api.GetProgress | src/lib/api.ts:315-358 | one entry per day from start to end in order, none when start is after end; each entry is that day's completed-row count, the task total, the rounded percentage (0 with no tasks) and the weekday name |
| Api.LookupCompletion | src/lib/api.ts:275-286 | NoRow exactly when no row of that task falls on that date; the `maybeSingle` error exactly when two or more rows do; an Existing row belongs to that task and date and is the only such row |
| Api.ToggleCompletion | src/lib/api.ts:272-311 | NotAuthenticated without a user; a failed lookup is passed through with its message; a refused update or insert returns its error; otherwise an existing row gets its flag negated, or a completed row for the user is inserted |
| Api.ToggleFlipsDone | src/lib/api.ts:272-311 | with unique row ids and at most one row per task and day, a successful toggle turns "done on that day" into its negation |
| Api.ToggleTwiceRestores | src/lib/api.ts:272-311 | two successive toggles leave the day's done-state as it was |
| Api.UpsertJournal | src/lib/api.ts:363-380 | NotAuthenticated without a user; a refused upsert returns its error; otherwise the entry keyed by (user, date) is inserted or replaced and every other entry is unchanged |
| Api.GetJournal | src/lib/api.ts:382-391 | the signed-in user's entry for the date when there is one, otherwise none |
| Api.UpsertThenGet | src/lib/api.ts:363-391 | after an accepted upsert, reading that day returns the saved title and content, and the user's other days read as before |
| ProgressGraph.AverageCompletion | src/components/ProgressGraph.tsx:18-20 | 0 for no data, otherwise the mean completion rounded half up |
| ProgressGraph.AverageAtMost100 | src/components/ProgressGraph.tsx:18-20 | the average of percentages that are each at most 100 is at most 100 |
| ProgressGraph.MaxTasksCompleted | src/components/ProgressGraph.tsx:23 | bounds every day's count and is attained by some day, or is 0 |
| ProgressGraph.YAxisMax | src/components/ProgressGraph.tsx:24-27 | at least the task total, above the maximum count, and equal to one of the two |
| ProgressGraph.TickStep | src/components/ProgressGraph.tsx:33 | the step is 1 up to 5, 2 up to 10, and above that the least step that reaches the axis maximum in five steps |
| ProgressGraph.GenerateYTicks | src/components/ProgressGraph.tsx:30-42 | the ticks are the multiples of the step from 0, strictly increasing and bounded by the maximum, always end with the maximum, and add it only when it is not already a multiple |
| ProgressGraph.BestDay | src/components/ProgressGraph.tsx:173-177 | "N/A" with no data, otherwise the name of the first day with the largest count |
| ProgressGraph.TrendOf | src/components/ProgressGraph.tsx:186-190 | Improving or Declining exactly when there are two or more days and the last day's count is above or below the first day's |
| ProgressGraph.TrendReversed | src/components/ProgressGraph.tsx:186-190 | reversing the days swaps Improving and Declining and keeps Stable |
| IsoDates.IsoOrder | src/components/TaskGrid.tsx:18 | ISO date strings compare lexicographically exactly as the dates compare, and are equal exactly for the same date |
| TaskGrid.TodayAndFutureFollowDayOrder | src/components/TaskGrid.tsx:47-49 | the string tests mark today exactly the current date, and future exactly the later dates |
| TaskGrid.CompletedOnlyWhenTrue | src/components/TaskGrid.tsx:94 | a cell shows the check mark only for a stored `true`; a stored `false` and a missing entry both show it empty, and entries under other keys do not matter |
| TaskGrid.CellClick | src/components/TaskGrid.tsx:92-107 | a click issues a toggle for the task and date exactly when the date is not in the future |
| TaskGrid.CellDisabled | src/components/TaskGrid.tsx:107 | a cell is disabled exactly for future dates |
| MonthlyTracker.GoToPreviousMonth | src/components/MonthlyTracker.tsx:14-16 | the month ending the day before this month begins, wrapping January to December of the previous year |
| MonthlyTracker.GoToNextMonth | src/components/MonthlyTracker.tsx:18-20 | the month starting the day after this month ends, wrapping December to January |
| MonthlyTracker.GoToCurrentMonth | src/components/MonthlyTracker.tsx:22-24 | the month that contains today |
| MonthlyTracker.NavigationRoundTrip | src/components/MonthlyTracker.tsx:14-20 | next after previous, and previous after next, return to the month shown |
| MonthlyTracker.CountDone | src/components/MonthlyTracker.tsx:49-51 | the number of tasks done under a key, at most the number of tasks |
| MonthlyTracker.CountDoneIsFilter | src/components/MonthlyTracker.tsx:49-51 | the count equals the length of the tasks filtered on a stored `true` under the key |
| MonthlyTracker.CountDoneZero | src/components/MonthlyTracker.tsx:49-51 | the count of tasks marked done under a key is zero exactly when no task is marked done under it |
| MonthlyTracker.Rate | src/components/MonthlyTracker.tsx:53 | 0 without tasks, otherwise the rate times the task count equals 100 times the done count; it lies in [0, 100] |
| MonthlyTracker.MakeCell | src/components/MonthlyTracker.tsx:45-68 | the cell for day n of the month has that date; its done count is the number of tasks done under the cell's key, at most the task total; its rate times the task total is 100 times the done count, within [0, 100] and 0 without tasks; it is today or past exactly when its date is today or earlier |
| MonthlyTracker.WeekCount | src/components/MonthlyTracker.tsx:38-74 | the calendar has 4 to 6 rows: the fewest whole weeks that hold the leading blanks and every day |
| MonthlyTracker.GenerateMonthCalendar | src/components/MonthlyTracker.tsx:27-77 | rows of seven; a slot holds a cell exactly when it falls after the leading blanks and within the month's length, and that cell is the one for its day number |
| MonthlyTracker.EachDayOnce | src/components/MonthlyTracker.tsx:38-74 | every day of the month appears at exactly one slot, the one offset by the month's starting weekday |
| MonthlyTracker.FirstWeekLead | src/components/MonthlyTracker.tsx:42 | the first row has one blank per weekday before the 1st, then the 1st |
| MonthlyTracker.StatsEnd | src/components/MonthlyTracker.tsx:91-95 | the statistics end today when the month shown contains today, and otherwise at the month's last day |
| MonthlyTracker.StatsSpan | src/components/MonthlyTracker.tsx:91-104 | the counted days number today's day of the month for the current month, and the month's length otherwise |
| MonthlyTracker.TallyDays | src/components/MonthlyTracker.tsx:97-112 | the loop counts the days, the days with at least one completion, the completions, and days times tasks as possible completions |
| MonthlyTracker.ActiveBounded | src/components/MonthlyTracker.tsx:107-109 | active days never exceed counted days |
| MonthlyTracker.CompletionsBounded | src/components/MonthlyTracker.tsx:106-111 | total completions never exceed days times tasks |
| MonthlyTracker.CalculateMonthlyStats | src/components/MonthlyTracker.tsx:85-121 | total days, active days, and the rounded completion percentage over the span ending per StatsEnd; active days ≤ total days and the average ≤ 100 |
| MonthlyTracker.CellShade | src/components/MonthlyTracker.tsx:243-255 | blank slots are transparent; today is highlighted; future days are grey; past days are green at ≥ 75%, blue at ≥ 50%, yellow above 0, grey otherwise |
| MonthlyTracker.ShadeMonotone | src/components/MonthlyTracker.tsx:246-253 | among past days, a higher rate never gets a lower shade |
| MonthlyTracker.LocaleCellsShowNothing | src/components/MonthlyTracker.tsx:46-51 | with the locale key the calendar reads, maps that hold only ISO keys show zero completions and a zero rate on every day |
| MonthlyTracker.LocaleMismatchExample | src/components/MonthlyTracker.tsx:46-51 | a task done on 2024-01-05 under its ISO key shows 1 with ISO lookup and 0 with locale lookup |
| MonthlyTracker.IsoCellsMatchStats | src/components/MonthlyTracker.tsx:103-106 | with ISO keys each cell's done count is the same per-day count the statistics use |
| TodayJournal.Init | src/components/TodayJournal.tsx:18-20 | the editor starts with the entry's title and content and with saving disabled |
| TodayJournal.EditTitle | src/components/TodayJournal.tsx:33-36 | the title becomes the typed value, the content is kept, and the editor is marked unsaved |
| TodayJournal.EditContent | src/components/TodayJournal.tsx:38-41 | the content becomes the typed value, the title is kept, and the editor is marked unsaved |
| TodayJournal.Save | src/components/TodayJournal.tsx:28-31 | sends the local content and title and marks the editor saved |
| TodayJournal.EditThenSave | src/components/TodayJournal.tsx:28-41 | after an edit saving is enabled; after saving it is disabled and the call carries the edited text |
| TodayJournal.SyncOnDate | src/components/TodayJournal.tsx:23-26 | a new entry replaces the local text only when its date differs from the last one seen |
| TodayJournal.LoadedEntryHidden | src/components/TodayJournal.tsx:23-26 | a non-empty entry loaded for today after the empty placeholder is not shown |
| TodayJournal.SyncOnEntry | src/components/TodayJournal.tsx:23-26 | a changed entry replaces the local text; an unchanged one leaves the editor as it is |
| TodayJournal.LoadedEntryShown | src/components/TodayJournal.tsx:23-26 | with the corrected sync, the entry loaded after the placeholder is shown |
| TodayJournal.SyncAgreeOnNewDate | src/components/TodayJournal.tsx:23-26 | both syncs agree whenever the date changes |
| JournalArchive.Included | src/components/JournalArchive.tsx:13-14 | keeps exactly the entries whose content is not all whitespace, in their order |
| JournalArchive.SortNewestFirst | src/components/JournalArchive.tsx:15-19 | a permutation of its input ordered by date, newest first |
| JournalArchive.FilterKeepsNewestFirst | src/components/JournalArchive.tsx:15-26 | a group taken from a newest-first list is newest-first |
| JournalArchive.AddEntry | src/components/JournalArchive.tsx:20-26 | the entry joins the first group with its month, or opens a new group for that month at the end |
| JournalArchive.GroupByIsGrouping | src/components/JournalArchive.tsx:20-26 | one non-empty group per month present; each group holds exactly that month's entries, in order |
| JournalArchive.GroupSizesSum | src/components/JournalArchive.tsx:20-28 | the group sizes add up to the number of entries grouped |
| JournalArchive.BuildArchive | src/components/JournalArchive.tsx:13-28 | the header total equals the entries shown across the groups; these are exactly the non-blank entries, grouped by month and newest-first within each group |
| JournalArchive.ClickEntry | src/components/JournalArchive.tsx:61-67 | clicking the expanded entry collapses it; clicking any other entry expands that entry alone |
| JournalArchive.ClickTwiceCollapses | src/components/JournalArchive.tsx:67 | two clicks on the same entry leave nothing expanded |
| Dashboard.Guard | src/components/Dashboard.tsx:645-670 | the guard selects nothing until the session check finishes; after it, the dashboard exactly when there is a user, and otherwise a sign-in prompt (as written, the dashboard branch then fails on hook order; see Findings) |
| Dashboard.HooksCalled | src/components/Dashboard.tsx:646-767 | with the state hooks below the early returns, a render calls only the 3 guard hooks exactly when it does not reach the dashboard, and 14 when it does; hoisted, every render calls 14 |
| Dashboard.SignedInRenderThrows | src/components/Dashboard.tsx:646-767 | as written, a re-render fails exactly when the session check has finished and there is a user, because it calls more hooks than the mount |
| Dashboard.HoistedRenderShowsGuard | src/components/Dashboard.tsx:645-684 | with every hook above the early returns, each re-render shows the guard's choice, the dashboard included |
| Dashboard.DayWindow | src/components/Dashboard.tsx:690-706 | ten columns from three days before today to six after, with today fourth |
| Dashboard.WindowConsecutive | src/components/Dashboard.tsx:694-702 | neighbouring columns are consecutive dates; the weekday name advances with Saturday wrapping to Sunday; the day of the month advances or restarts at 1 |
| Dashboard.FindTask | src/components/Dashboard.tsx:727 | the index of the first task with that id, or none when no task has it |
| Dashboard.MapCompletions | src/components/Dashboard.tsx:709-735 | one task per loaded task row, in order and with the row's id; a missing result counts as empty |
| Dashboard.ApplyRowsIsLastWrite | src/components/Dashboard.tsx:721-729 | after the mapping, the first task with an id holds for each day the last loaded row's value; duplicates of an id get nothing; no locale keys are written |
| Dashboard.MappedKeysAreIso | src/components/Dashboard.tsx:721-729 | mapped tasks carry ISO-keyed completion maps only |
| Dashboard.LoadedEntriesInRange | src/components/Dashboard.tsx:710-729 | every date recorded by the load lies in the thirty days before today, or is today |
| Dashboard.AddTask | src/components/Dashboard.tsx:770-780 | a blank title or a failed create changes nothing; otherwise the created task is appended with an empty map and the input is cleared |
| Dashboard.AddTaskSendsTrimmed | src/components/Dashboard.tsx:770-775 | the title stored is the trimmed input and is never blank |
| Dashboard.ToggleLocal | src/components/Dashboard.tsx:782-797 | every task with the id gets its entry for the date negated, an absent entry becoming true; other tasks are unchanged |
| Dashboard.HandleToggle | src/components/Dashboard.tsx:782-797 | when `toggleCompletion` throws for want of a user nothing changes; after any other outcome, error or not, every task with the id gets its cell flipped and nothing else changes |
| Dashboard.NoSessionNoLocalChange | src/components/Dashboard.tsx:782-784 | without a session the toggle handler leaves the dashboard state exactly as it was |
| Dashboard.ToggleDivergesOnReturnedError | src/components/Dashboard.tsx:782-797 | when the lookup finds several rows or the backend refuses the write, the API reports an error and the server table is not replaced, yet the grid shows the cell flipped |
| Dashboard.DeleteLocal | src/components/Dashboard.tsx:799-802 | keeps exactly the tasks with another id, each as often as it occurred, in order |
| Dashboard.DeleteLocalIdempotent | src/components/Dashboard.tsx:799-802 | deleting twice is deleting once; deleting an absent id changes nothing |
| Dashboard.TodayCompleted | src/components/Dashboard.tsx:817-819 | the length of the list of tasks whose entry for today is truthy, at most the number of tasks |
| Dashboard.TodayCountAfterToggle | src/components/Dashboard.tsx:782-819 | toggling today's cell of a task with a unique id moves the count down by one if it was done and up by one otherwise |
| Dashboard.UpdateJournal | src/components/Dashboard.tsx:810-813 | the entry for the date becomes the new title and content; other dates are kept; entries stay stored under their own date |
| Dashboard.HandleUpdateJournal | src/components/Dashboard.tsx:804-814 | when `upsertJournal` throws for want of a user the entries are unchanged; after any other outcome, error or not, the local update is applied |
| Dashboard.NoSessionKeepsJournals | src/components/Dashboard.tsx:804-814 | without a session a save leaves the local entries exactly as they were |
| Dashboard.RefusedSaveDiverges | src/components/Dashboard.tsx:804-814 | a save the backend refuses returns its error, so the server keeps its rows, yet the local entry shows the new text |
| Dashboard.LoadTodayJournal | src/components/Dashboard.tsx:738-751 | a journal found for today is stored under today; no result leaves the map unchanged |
| Dashboard.TodayJournalOf | src/components/Dashboard.tsx:821-822 | today's stored entry, or an empty entry dated today |
| Dashboard.SavedJournalMatchesServer | src/components/Dashboard.tsx:804-815 | after an accepted save, the server row and the local entry for the day carry the same title and content |
| Dashboard.LoadProgress | src/components/Dashboard.tsx:754-767 | seven progress entries, for today and the six days before, each with its weekday name |
| App.FromSession | src/App.tsx:136-146 | a session selects the dashboard, no session selects sign-in, and the user is the session's user |
| App.Screen | src/App.tsx:151-182 | nothing shows until ready; the dashboard state shows nothing without a user; otherwise the selected view |
| App.ReadyStays | src/App.tsx:133-141 | once the session check has finished the app stays ready |
| App.Step | src/App.tsx:133-171 | the session load and auth events set the view from the session; sign-in success goes to the dashboard, the switch links move between sign-in and sign-up, sign-up success goes to onboarding, onboarding completion is the onboarding step; a callback does nothing unless its screen is shown, and callbacks never change the user or readiness |
| App.OnboardingStep | src/components/Onboarding.tsx:20-46 | onboarding completes to the dashboard exactly when it can read a signed-in user, otherwise it stays |
| App.StepRouted | src/App.tsx:162-167 | corrected routing: a sign-up awaiting verification from the sign-up screen goes to the verification view; every other event behaves as in the code |
| App.BlankUntilSessionLoaded | src/App.tsx:151 | before the session check resolves nothing is shown, whatever other events arrive |
| App.AuthEventDecides | src/App.tsx:143-146 | the latest auth event alone decides between dashboard and sign-in, and sets the user |
| App.RestoredSessionShowsDashboard | src/App.tsx:136-141 | a restored session with a user shows the dashboard; no session shows sign-in |
| App.SignUpNeedingVerifyIsStuck | src/App.tsx:162-171 | as written, a sign-up awaiting verification lands on onboarding, and its continue button never leaves it |
| App.SignUpRouted | src/App.tsx:162-167 | corrected, a sign-up awaiting verification shows the verification screen, and one with a session goes to onboarding |
| SignIn.ToastFor | src/components/SignIn.tsx:52-67 | an error toast for 4000 ms exactly when the lower-cased message contains "invalid"; otherwise an info toast for 3000 ms |
| SignIn.ToastIgnoresCase | src/components/SignIn.tsx:53-55 | the toast does not depend on the letter case of the server's message |
| SignIn.AddToast | src/components/SignIn.tsx:27-33 | appends the toast after the existing ones, which are kept |
| SignIn.RemoveToast | src/components/SignIn.tsx:30-37 | keeps exactly the toasts with another id, each as often as it occurred, in order |
| SignIn.AddThenRemove | src/components/SignIn.tsx:27-37 | removing a just-added toast with a fresh id restores the list |
| SignIn.Submit | src/components/SignIn.tsx:39-48 | ignored while loading; otherwise loading starts and the email and password are sent |
| SignIn.Finish | src/components/SignIn.tsx:50-71 | loading ends; the parent is told of success exactly when there was no error; an error adds exactly the matching toast |
| SignIn.DoubleSubmitSendsOnce | src/components/SignIn.tsx:41-50 | a second press during a request sends nothing, and the reply re-enables the button |
| RocketGame.Clamp | src/components/RocketGame.tsx:89 | the touched position clamped to [5, 95], unchanged when already inside |
| RocketGame.Load | src/components/RocketGame.tsx:6-22 | not playing, not over, score 0, no meteors, the stored best score; a non-negative stored score satisfies the game invariant |
| RocketGame.Move | src/components/RocketGame.tsx:59-98 | controls do nothing when not playing; arrow keys step by 5 and buttons by 8, each stopping at the edge it moves toward; a touch jumps to the clamped position; only the position changes |
| RocketGame.LeftRightReturns | src/components/RocketGame.tsx:62-67 | away from the left edge, a left key then a right key returns the rocket to where it was |
| RocketGame.StartGame | src/components/RocketGame.tsx:168-174 | playing, not over, score 0, the rocket at 50, no meteors; the best score is kept |
| RocketGame.StopGame | src/components/RocketGame.tsx:176-182 | not playing and over; nothing else changes |
| RocketGame.StopIdempotent | src/components/RocketGame.tsx:176-182 | stopping twice is stopping once |
| RocketGame.Spawn | src/components/RocketGame.tsx:101-115 | while playing, appends one meteor at the top with the next id, x in [5, 95) and speed in [1.5, 2.5) |
| RocketGame.TickMeteors | src/components/RocketGame.tsx:121-130 | the meteors after a frame are exactly the fallen meteors still above the bottom |
| RocketGame.FilterKeepsIdOrder | src/components/RocketGame.tsx:122-127 | dropping meteors keeps the rest in spawn order |
| RocketGame.Hits | src/components/RocketGame.tsx:156-160 | a meteor hits when it is at rocket level and its centre is within 8 of the rocket on either side |
| RocketGame.FindHit | src/components/RocketGame.tsx:154-165 | finds a hit exactly when some meteor at or below level 85 is within 8 of the rocket |
| RocketGame.CheckCollision | src/components/RocketGame.tsx:151-166 | while playing, a hit stops the game; otherwise nothing changes |
| RocketGame.ScoreTick | src/components/RocketGame.tsx:136-148 | one point per tick while playing, nothing otherwise |
| RocketGame.SyncHighScore | src/components/RocketGame.tsx:26-31 | the best score becomes the score when that is higher and never decreases |
| RocketGame.StarTick | src/components/RocketGame.tsx:49-52 | a star past the bottom wraps to 0; any other star drifts down by its speed |
| RocketGame.StarStaysInBand | src/components/RocketGame.tsx:49-52 | stars stay within [0, 100 + speed) |
| RocketGame.Step | src/components/RocketGame.tsx:26-182 | no event lowers the best score and the best is at least the score; when not playing, only start changes anything but the best score; stop ends play; start from idle begins a fresh round |
| RocketGame.StepKeepsInv | src/components/RocketGame.tsx:59-182 | every event keeps the rocket in [5, 95], meteors in spawn order with ids below the counter, never playing and over at once, and the best score at least the score |
| RocketGame.HighScoreMonotone | src/components/RocketGame.tsx:26-31 | no event lowers the best score |
| Rounding.PercentAtMost100 | src/lib/api.ts:342-346 | a rounded percentage of a count at most its total is at most 100 |
| Rounding.PercentAbove100 | src/lib/api.ts:342-346 | with more completed rows than tasks the percentage exceeds 100 (for totals up to 200) |
| Text.TrimEmptyIffBlank | src/components/JournalArchive.tsx:14 | a string trims to empty exactly when it is all whitespace |

## Left out

- Network, Supabase and the browser are not modelled: no timers, no `localStorage`, no animation or layout. Server replies are parameters, and `Date.now()` and `Math.random()` are parameters too.
- Time zones are left out: the model assumes the browser runs in UTC. The code mixes UTC (`toISOString`, date-only `new Date("YYYY-MM-DD")`) and local-time (`getDate`, `getDay`, `toLocaleDateString`) views of the same instant. Outside UTC this shifts dates all day, not only near midnight. Three shifts the model does not show:
  - `getProgress` names each day with `getDay()` of a date parsed as UTC midnight (src/lib/api.ts:353). West of UTC every chart label is the previous weekday.
  - The monthly statistics key each day by `toISOString()` of local midnight (src/components/MonthlyTracker.tsx:102-103). East of UTC every key is the previous date.
  - `nextDay` adds a local day to UTC midnight (src/lib/api.ts:256-260). On the day a daylight-saving zone springs forward west of UTC, it returns the same date: `nextDay("2024-03-10")` is `"2024-03-10"` in America/New_York. The toggle's lookup range is then empty, so a toggle on that day always inserts.
- Api.NextDayIsCalendarSuccessor: holds only under the UTC assumption above; the daylight-saving case in the previous line breaks it.
- Floating point is not modelled. Percentages use exact rounding of non-negative rationals, and the calendar rate and game positions use `real`.
- IsoDates.IsoString: covers years 0 to 9999 only, because four-digit years are all a `YYYY-MM-DD` string can hold.
- Text.Trim: treats ten characters as whitespace: space, tab, newline, carriage return, vertical tab, form feed, U+00A0, U+FEFF, U+2028 and U+2029. It omits the other white space JavaScript's `trim` removes: U+1680, U+2000 to U+200A, U+202F, U+205F and U+3000.
- Text.ToLower: lower-cases only ASCII letters.
- `getTasks` ordering by creation time is left out. The task list is taken as given.
- Api.DeleteTask: does not model the row-level ownership check, which lives in the database.
- The streak computation exists only in commented-out code, so it is left out.
- Dashboard.HooksCalled: models React's hook-order rule only as a count of hooks per render. The model does not cover hook identity, effect scheduling or how an uncaught render error unmounts the tree.
- MonthlyTracker.LocaleCellsShowNothing: assumes the browser locale's short date is not `YYYY-MM-DD`. In locales such as sv-SE and en-CA, `toLocaleDateString()` yields the ISO spelling and the cells work. The model's `LocaleKey` is always distinct from `IsoKey`, so it cannot express those locales.
- Api.CreateTask, Api.ToggleCompletion, Api.UpsertJournal: a refused write is a parameter; the model does not say when the backend refuses one.
- The sign-in form's input fields, the sign-up form, onboarding, the navbar and the space animation are only modelled where the view selector depends on them.
- JournalArchive.SortNewestFirst: does not prove sort stability. Dates are map keys, so no two entries share one.
- Rounding.Percent: the model computes the chart percentage with the integer count of rows, which may exceed the task total. PercentHidesSurplus shows that 202 completions of 201 tasks round to 100.

## Findings

| source | as written | input that shows it | evidently intended | confidence | as-written member | corrected member |
|---|---|---|---|---|---|---|
| src/components/MonthlyTracker.tsx:46-51 | calendar cells look up completions under `toLocaleDateString()`, but the dashboard stores them under ISO dates, and the statistics read ISO dates | in an en-US locale (any locale whose short date is not `YYYY-MM-DD`), a task completed on 2024-01-05: the ISO key is `2024-01-05`, while the cell looks up `1/5/2024` | cells read the same ISO key the statistics read | not executed; high | MonthlyTracker.LocaleCellsShowNothing | MonthlyTracker.IsoCellsMatchStats |
| src/components/TodayJournal.tsx:23-26 | the editor copies the entry into its local text only when the entry's date changes | the dashboard first passes an empty placeholder for today, then the saved entry for the same date; the saved text never appears | re-sync whenever the entry itself changes | not executed; high | TodayJournal.LoadedEntryHidden | TodayJournal.LoadedEntryShown |
| src/App.tsx:162-165 | sign-up success always goes to onboarding, ignoring the `'verify'` outcome sign-up reports when no session exists | sign-up that needs e-mail confirmation: onboarding cannot read a user, so its continue button does nothing | route the `'verify'` outcome to the verification screen | not executed; medium | App.SignUpNeedingVerifyIsStuck | App.SignUpRouted |
| src/components/Dashboard.tsx:662-684 | the `useState` and `useEffect` calls for the dashboard's state come after the early returns, so the mount render (session check pending) calls 3 hooks and a render with a user calls 14 | a signed-in user opens the dashboard: once the session check resolves with that user, React throws "Rendered more hooks than during the previous render" and the dashboard never appears | every hook above the early returns, so each render calls the same hooks | not executed; high | Dashboard.SignedInRenderThrows | Dashboard.HoistedRenderShowsGuard |

=== FILE: api.dfy ===
/** The data-access layer: the authentication precondition, the completion toggle, the
    range query behind `getCompletions`, and the client-side `getProgress` aggregation.

    The hosted tables are explicit values here: a table is a sequence of rows (in the order
    the backend returns them) and the journal table is a map keyed by (user, date). Row-level
    security is assumed to have scoped every table to the signed-in user already. */
module Api {

  import opened Wrappers
  import opened Calendar
  import opened Rounding
  import opened Seqs

  type TaskId = string
  type UserId = string

  /** The auth client's session; a session without a user counts as signed out. */
  datatype Session = Session(user: Option<UserId>)

  datatype ApiError = NotAuthenticated | Backend(message: string)

  datatype TaskRow = TaskRow(id: TaskId, title: string, userId: UserId)

  datatype CompletionRow = CompletionRow(id: nat, taskId: TaskId, date: Day, completed: bool, userId: UserId)

  datatype JournalRow = JournalRow(userId: UserId, date: Day, title: string, content: string)

  /** One day of the progress chart. */
  datatype DailyProgress = DailyProgress(date: Day, tasksCompleted: nat, totalTasks: nat, completion: nat, day: string)

  /** `getUserId`: the signed-in user, or "Not authenticated" when there is none. */
  function GetUserId(session: Option<Session>): (r: Result<UserId, ApiError>)
    ensures r.Failure? <==> session.None? || session.value.user.None?
    ensures r.Failure? ==> r.error == NotAuthenticated
    ensures r.Success? ==> Some(r.value) == session.value.user
  {
    match session
    case None => Failure(NotAuthenticated)
    case Some(s) =>
      match s.user
      case None => Failure(NotAuthenticated)
      case Some(u) => Success(u)
  }

  /* ---------------- tasks ---------------- */

  /** The inserted task together with the table after the insert. */
  datatype Created = Created(table: seq<TaskRow>, row: TaskRow)

  /** `createTask(title)`: throws before touching the table when nobody is signed in, and
      otherwise asks the backend to append a row owned by the signed-in user. `writeError` is the
      backend's reply to the `.insert(...).select().single()`: `None` when it accepts the row,
      `Some(message)` when it returns an error, in which case no row is added. */
  function CreateTask(session: Option<Session>, table: seq<TaskRow>, title: string, freshId: TaskId, writeError: Option<string>)
    : (r: Result<Created, ApiError>)
    ensures GetUserId(session).Failure? ==> r == Failure(NotAuthenticated)
    ensures GetUserId(session).Success? && writeError.Some? ==> r == Failure(Backend(writeError.value))
    ensures GetUserId(session).Success? && writeError.None? ==>
      r.Success? && r.value.row == TaskRow(freshId, title, GetUserId(session).value)
      && r.value.table == table + [r.value.row]
  {
    match GetUserId(session)
    case Failure(e) => Failure(e)
    case Success(u) =>
      match writeError
      case Some(msg) => Failure(Backend(msg))
      case None =>
        var row := TaskRow(freshId, title, u);
        Success(Created(table + [row], row))
  }

  /** `deleteTask(id)`: removes the rows with that id; it does not consult the session. */
  function DeleteTask(table: seq<TaskRow>, id: TaskId): (r: seq<TaskRow>)
    ensures forall t :: t in r <==> t in table && t.id != id
    ensures forall t :: multiset(r)[t] == if t.id != id then multiset(table)[t] else 0
  {
    FilterCountsAll(table, (t: TaskRow) => t.id != id);
    Filter(table, (t: TaskRow) => t.id != id)
  }

  /* ---------------- completions ---------------- */

  /** `nextDay(d)`: the calendar day after `d`, used as the exclusive upper bound of a range. */
  function NextDay(d: Day): (r: Day)
    ensures r > d
  {
    d + 1
  }

  /** `nextDay` lands on the following calendar date, across month and year ends. */
  lemma NextDayIsCalendarSuccessor(d: Day)
    ensures ToCivil(NextDay(d)) == NextCivil(ToCivil(d))
  {
    NextCivilIsNextDay(ToCivil(d));
    CivilRoundTrip(NextCivil(ToCivil(d)));
  }

  /** The filter `.gte('date', start).lt('date', nextDay(end))`. */
  predicate InQueryRange(date: Day, start: Day, end: Day) {
    start <= date < NextDay(end)
  }

  /** The half-open query range is the inclusive range `[start, end]`. */
  lemma QueryRangeInclusive(date: Day, start: Day, end: Day)
    ensures InQueryRange(date, start, end) <==> start <= date <= end
  {
  }

  /** `getCompletions(start, end)`: the rows dated from `start` to `end` inclusive, in table order. */
  function GetCompletions(table: seq<CompletionRow>, start: Day, end: Day): (rows: seq<CompletionRow>)
    ensures forall c :: c in rows <==> c in table && start <= c.date <= end
  {
    Filter(table, (c: CompletionRow) => InQueryRange(c.date, start, end))
  }

  /** The number of rows dated `d` whose `completed` flag is set. */
  function CompletedOn(rows: seq<CompletionRow>, d: Day): nat {
    |Filter(rows, (c: CompletionRow) => c.completed && c.date == d)|
  }

  /** Counting over the query result is counting over the whole table, for days in the range. */
  lemma QueryKeepsCounts(table: seq<CompletionRow>, start: Day, end: Day, d: Day)
    requires start <= d <= end
    ensures CompletedOn(GetCompletions(table, start, end), d) == CompletedOn(table, d)
  {
    FilterNarrows(table, (c: CompletionRow) => InQueryRange(c.date, start, end), (c: CompletionRow) => c.completed && c.date == d);
  }

  /* ---------------- progress ---------------- */

  /** `counts[ds] || 0`. */
  function CountOr0(counts: map<Day, nat>, d: Day): nat {
    if d in counts then counts[d] else 0
  }

  /** One step of the `forEach` that tallies completed rows per date. */
  function AddCompleted(counts: map<Day, nat>, c: CompletionRow): map<Day, nat> {
    if c.completed then counts[c.date := CountOr0(counts, c.date) + 1] else counts
  }

  /** The tally built by the `forEach`, left to right, starting from `counts`. */
  function Tally(counts: map<Day, nat>, rows: seq<CompletionRow>): map<Day, nat>
    decreases |rows|
  {
    if |rows| == 0 then counts else Tally(AddCompleted(counts, rows[0]), rows[1..])
  }

  /** The tally for a date is the number of completed rows with that date; other rows add nothing. */
  lemma {:induction false} TallyCounts(counts: map<Day, nat>, rows: seq<CompletionRow>, d: Day)
    ensures CountOr0(Tally(counts, rows), d) == CountOr0(counts, d) + CompletedOn(rows, d)
    decreases |rows|
  {
    if |rows| > 0 {
      TallyCounts(AddCompleted(counts, rows[0]), rows[1..], d);
      assert Filter(rows, (c: CompletionRow) => c.completed && c.date == d)
        == (if rows[0].completed && rows[0].date == d then [rows[0]] else [])
           + Filter(rows[1..], (c: CompletionRow) => c.completed && c.date == d);
    }
  }

  /** The chart entry for date `d` given the tally and the task count. */
  predicate IsProgressOf(p: DailyProgress, d: Day, rows: seq<CompletionRow>, totalTasks: nat) {
    && p.date == d
    && p.tasksCompleted == CompletedOn(rows, d)
    && p.totalTasks == totalTasks
    && p.completion == Percent(p.tasksCompleted, totalTasks)
    && p.day == DayName(d)
  }

  /** `getProgress(start, end)` given the replies of `getTasks` and `getCompletions` (a failed
      request reads as an empty list): one entry per day from `start` to `end`, ascending, and
      no entries at all, without an error, when `start` is after `end`. */
  method GetProgress(tasksData: Option<seq<TaskRow>>, comps: Option<seq<CompletionRow>>, start: Day, end: Day)
    returns (results: seq<DailyProgress>)
    ensures |results| == if start <= end then end - start + 1 else 0
    ensures forall i :: 0 <= i < |results| ==>
      IsProgressOf(results[i], start + i, comps.GetOr([]), |tasksData.GetOr([])|)
  {
    var totalTasks := |tasksData.GetOr([])|;
    var rows := comps.GetOr([]);
    var counts := Tally(map[], rows);
    results := [];
    var d := start;
    while d <= end
      invariant start <= d && (d <= end + 1 || d == start)
      invariant |results| == d - start
      invariant forall i :: 0 <= i < |results| ==> IsProgressOf(results[i], start + i, rows, totalTasks)
      decreases end + 1 - d
    {
      var tasksCompleted := CountOr0(counts, d);
      TallyCounts(map[], rows, d);
      var completion := if totalTasks > 0 then RoundDiv(100 * tasksCompleted, totalTasks) else 0;
      var entry := DailyProgress(d, tasksCompleted, totalTasks, completion, DayNames[Weekday(d)]);
      assert IsProgressOf(entry, start + |results|, rows, totalTasks);
      results := results + [entry];
      d := d + 1;
    }
  }

  /* ---------------- toggle ---------------- */

  /** What the `maybeSingle` lookup of `toggleCompletion` returns. */
  datatype Lookup = LookupFailed(message: string) | Existing(row: CompletionRow) | NoRow

  predicate RowFor(r: CompletionRow, taskId: TaskId, date: Day) {
    r.taskId == taskId && date <= r.date < NextDay(date)
  }

  /** `.eq('task_id', taskId).gte('date', d).lt('date', nextDay(d)).maybeSingle()`: no row,
      the one row, or an error when several rows match. */
  function LookupCompletion(table: seq<CompletionRow>, taskId: TaskId, date: Day): (l: Lookup)
    ensures l.Existing? ==> l.row in table && l.row.taskId == taskId && l.row.date == date
    ensures l.Existing? ==> forall r :: r in table && RowFor(r, taskId, date) ==> r == l.row
    ensures l.NoRow? <==> forall r :: r in table ==> !RowFor(r, taskId, date)
    ensures l.LookupFailed? <==>
      exists i, j :: 0 <= i < j < |table| && RowFor(table[i], taskId, date) && RowFor(table[j], taskId, date)
  {
    var matches := Filter(table, (r: CompletionRow) => RowFor(r, taskId, date));
    FilterTwo(table, (r: CompletionRow) => RowFor(r, taskId, date));
    if |matches| == 0 then NoRow
    else if |matches| == 1 then Existing(matches[0])
    else LookupFailed("JSON object requested, multiple (or no) rows returned")
  }

  /** The write `toggleCompletion` issues. */
  datatype Write = Update(id: nat, completed: bool) | Insert(row: CompletionRow)

  /** `.update({completed}).eq('id', id)`. */
  function SetCompleted(table: seq<CompletionRow>, id: nat, completed: bool): (r: seq<CompletionRow>)
    ensures |r| == |table|
    ensures forall i :: 0 <= i < |table| ==>
      r[i] == if table[i].id == id then table[i].(completed := completed) else table[i]
  {
    if |table| == 0 then []
    else [if table[0].id == id then table[0].(completed := completed) else table[0]] + SetCompleted(table[1..], id, completed)
  }

  function ApplyWrite(table: seq<CompletionRow>, w: Write): seq<CompletionRow> {
    match w
    case Update(id, completed) => SetCompleted(table, id, completed)
    case Insert(row) => table + [row]
  }

  /** The decision of `toggleCompletion`: no write when the lookup fails, the negated flag on the
      existing row, or a new completed row. */
  function ToggleWrite(userId: UserId, lookup: Lookup, taskId: TaskId, date: Day, freshId: nat): Result<Write, ApiError> {
    match lookup
    case LookupFailed(msg) => Failure(Backend(msg))
    case Existing(row) => Success(Update(row.id, !row.completed))
    case NoRow => Success(Insert(CompletionRow(freshId, taskId, date, true, userId)))
  }

  /** `toggleCompletion(taskId, date)` against `table`; `freshId` is the id the backend gives an
      inserted row, and `writeError` its reply to the update or insert: `None` when the write is
      accepted, `Some(message)` when it returns an error and the table stays as it was. A missing
      user is the throw of `getUserId`, modelled as `Failure(NotAuthenticated)`. */
  function ToggleCompletion(session: Option<Session>, table: seq<CompletionRow>, taskId: TaskId, date: Day, freshId: nat,
                            writeError: Option<string>)
    : (r: Result<seq<CompletionRow>, ApiError>)
    ensures GetUserId(session).Failure? ==> r == Failure(NotAuthenticated)
    ensures GetUserId(session).Success? && LookupCompletion(table, taskId, date).LookupFailed? ==>
      r == Failure(Backend(LookupCompletion(table, taskId, date).message))
    ensures GetUserId(session).Success? && !LookupCompletion(table, taskId, date).LookupFailed? && writeError.Some? ==>
      r == Failure(Backend(writeError.value))
    ensures GetUserId(session).Success? && LookupCompletion(table, taskId, date).NoRow? && writeError.None? ==>
      r == Success(table + [CompletionRow(freshId, taskId, date, true, GetUserId(session).value)])
    ensures GetUserId(session).Success? && LookupCompletion(table, taskId, date).Existing? && writeError.None? ==>
      var row := LookupCompletion(table, taskId, date).row;
      r.Success? && |r.value| == |table|
      && forall i :: 0 <= i < |table| ==>
           r.value[i] == if table[i].id == row.id then table[i].(completed := !row.completed) else table[i]
  {
    match GetUserId(session)
    case Failure(e) => Failure(e)
    case Success(u) =>
      match ToggleWrite(u, LookupCompletion(table, taskId, date), taskId, date, freshId)
      case Failure(e) => Failure(e)
      case Success(w) =>
        match writeError
        case Some(msg) => Failure(Backend(msg))
        case None => Success(ApplyWrite(table, w))
  }

  /** Every row has its own id. */
  ghost predicate UniqueIds(table: seq<CompletionRow>) {
    forall i, j :: 0 <= i < |table| && 0 <= j < |table| && table[i].id == table[j].id ==> i == j
  }

  /** At most one row records `taskId` on `date`. */
  ghost predicate AtMostOneRow(table: seq<CompletionRow>, taskId: TaskId, date: Day) {
    forall i, j :: 0 <= i < |table| && 0 <= j < |table| && RowFor(table[i], taskId, date) && RowFor(table[j], taskId, date) ==> i == j
  }

  /** The (task, date) pair counts as done: its row exists and is marked completed. A missing
      row and a row with `completed == false` mean the same. */
  ghost predicate IsDone(table: seq<CompletionRow>, taskId: TaskId, date: Day) {
    exists i :: 0 <= i < |table| && RowFor(table[i], taskId, date) && table[i].completed
  }

  /** Updating the flag of the one row of a (task, date) pair sets that pair's done state and
      no other. */
  lemma UpdateSetsDone(table: seq<CompletionRow>, k: nat, taskId: TaskId, date: Day, v: bool)
    requires UniqueIds(table) && AtMostOneRow(table, taskId, date)
    requires k < |table| && RowFor(table[k], taskId, date)
    ensures var t' := SetCompleted(table, table[k].id, v);
      && IsDone(t', taskId, date) == v
      && UniqueIds(t') && AtMostOneRow(t', taskId, date)
      && (forall t, d :: (t != taskId || d != date) ==> IsDone(t', t, d) == IsDone(table, t, d))
  {
    var t' := SetCompleted(table, table[k].id, v);
    assert forall i :: 0 <= i < |table| && i != k ==> t'[i] == table[i];
    assert t'[k] == table[k].(completed := v);
    forall t, d | t != taskId || d != date
      ensures IsDone(t', t, d) == IsDone(table, t, d)
    {
      if IsDone(t', t, d) {
        var i :| 0 <= i < |t'| && RowFor(t'[i], t, d) && t'[i].completed;
        assert table[i] == t'[i];
      }
      if IsDone(table, t, d) {
        var i :| 0 <= i < |table| && RowFor(table[i], t, d) && table[i].completed;
        assert table[i] == t'[i];
      }
    }
  }

  /** Appending the first row of a (task, date) pair marks that pair done and no other. */
  lemma InsertSetsDone(table: seq<CompletionRow>, row: CompletionRow, taskId: TaskId, date: Day)
    requires UniqueIds(table)
    requires forall i :: 0 <= i < |table| ==> !RowFor(table[i], taskId, date) && table[i].id != row.id
    requires row.taskId == taskId && row.date == date && row.completed
    ensures var t' := table + [row];
      && IsDone(t', taskId, date) && !IsDone(table, taskId, date)
      && UniqueIds(t') && AtMostOneRow(t', taskId, date)
      && (forall t, d :: (t != taskId || d != date) ==> IsDone(t', t, d) == IsDone(table, t, d))
  {
    var t' := table + [row];
    assert RowFor(t'[|table|], taskId, date);
    forall t, d | t != taskId || d != date
      ensures IsDone(t', t, d) == IsDone(table, t, d)
    {
      if IsDone(t', t, d) {
        var i :| 0 <= i < |t'| && RowFor(t'[i], t, d) && t'[i].completed;
        assert i < |table| && table[i] == t'[i];
      }
      if IsDone(table, t, d) {
        var i :| 0 <= i < |table| && RowFor(table[i], t, d) && table[i].completed;
        assert table[i] == t'[i];
      }
    }
  }

  /** A toggle on a well-formed table whose write the backend accepts succeeds, flips the done
      state of its own (task, date) pair, keeps the table well formed, and leaves every other
      pair as it was. */
  lemma ToggleFlipsDone(session: Option<Session>, table: seq<CompletionRow>, taskId: TaskId, date: Day, freshId: nat)
    requires GetUserId(session).Success?
    requires UniqueIds(table) && AtMostOneRow(table, taskId, date)
    requires forall i :: 0 <= i < |table| ==> table[i].id != freshId
    ensures var r := ToggleCompletion(session, table, taskId, date, freshId, None);
      && r.Success?
      && IsDone(r.value, taskId, date) == !IsDone(table, taskId, date)
      && UniqueIds(r.value) && AtMostOneRow(r.value, taskId, date)
      && (forall t, d :: (t != taskId || d != date) ==> IsDone(r.value, t, d) == IsDone(table, t, d))
  {
    FilterAtMostOne(table, (c: CompletionRow) => RowFor(c, taskId, date));
    var l := LookupCompletion(table, taskId, date);
    if l.Existing? {
      var k :| 0 <= k < |table| && table[k] == l.row;
      assert IsDone(table, taskId, date) == table[k].completed;
      UpdateSetsDone(table, k, taskId, date, !table[k].completed);
    } else {
      InsertSetsDone(table, CompletionRow(freshId, taskId, date, true, GetUserId(session).value), taskId, date);
    }
  }

  /** Toggling the same (task, date) twice, with both writes accepted, restores its done state. */
  lemma ToggleTwiceRestores(session: Option<Session>, table: seq<CompletionRow>, taskId: TaskId, date: Day, id1: nat, id2: nat)
    requires GetUserId(session).Success?
    requires UniqueIds(table) && AtMostOneRow(table, taskId, date)
    requires forall i :: 0 <= i < |table| ==> table[i].id != id1 && table[i].id != id2
    requires id1 != id2
    ensures var r1 := ToggleCompletion(session, table, taskId, date, id1, None);
      r1.Success? &&
      var r2 := ToggleCompletion(session, r1.value, taskId, date, id2, None);
      r2.Success? && IsDone(r2.value, taskId, date) == IsDone(table, taskId, date)
  {
    ToggleFlipsDone(session, table, taskId, date, id1);
    var t1 := ToggleCompletion(session, table, taskId, date, id1, None).value;
    assert forall i :: 0 <= i < |t1| ==> t1[i].id != id2 by {
      forall i | 0 <= i < |t1|
        ensures t1[i].id != id2
      {
        if i < |table| {
          assert t1[i].id == table[i].id;
        }
      }
    }
    ToggleFlipsDone(session, t1, taskId, date, id2);
  }

  /* ---------------- journals ---------------- */

  /** `upsertJournal(date, title, content)`: throws when nobody is signed in; otherwise the entry
      keyed by (user, date) is inserted or replaced, unless the backend refuses the upsert
      (`writeError` is `Some(message)`), in which case its error is returned. */
  function UpsertJournal(session: Option<Session>, journals: map<(UserId, Day), JournalRow>, date: Day, title: string,
                         content: string, writeError: Option<string>)
    : (r: Result<map<(UserId, Day), JournalRow>, ApiError>)
    ensures GetUserId(session).Failure? ==> r == Failure(NotAuthenticated)
    ensures GetUserId(session).Success? && writeError.Some? ==> r == Failure(Backend(writeError.value))
    ensures GetUserId(session).Success? && writeError.None? ==>
      var key := (GetUserId(session).value, date);
      r.Success? && r.value.Keys == journals.Keys + {key}
      && r.value[key] == JournalRow(key.0, date, title, content)
      && forall k :: k in journals && k != key ==> r.value[k] == journals[k]
  {
    match GetUserId(session)
    case Failure(e) => Failure(e)
    case Success(u) =>
      match writeError
      case Some(msg) => Failure(Backend(msg))
      case None => Success(journals[(u, date) := JournalRow(u, date, title, content)])
  }

  /** `getJournal(date)` for the signed-in user: the entry, if any. */
  function GetJournal(journals: map<(UserId, Day), JournalRow>, user: UserId, date: Day): (r: Option<JournalRow>)
    ensures r.None? <==> (user, date) !in journals
    ensures r.Some? ==> r.value == journals[(user, date)]
  {
    if (user, date) in journals then Some(journals[(user, date)]) else None
  }

  /** An accepted upsert is what a later `getJournal` of that day returns, and the other days
      of every user read as before. */
  lemma UpsertThenGet(session: Option<Session>, journals: map<(UserId, Day), JournalRow>, date: Day, title: string,
                      content: string, user: UserId, other: Day)
    requires GetUserId(session) == Success(user)
    ensures var r := UpsertJournal(session, journals, date, title, content, None);
            r.Success?
            && GetJournal(r.value, user, date) == Some(JournalRow(user, date, title, content))
            && (other != date ==> GetJournal(r.value, user, other) == GetJournal(journals, user, other))
  {
  }
}

=== FILE: app.dfy ===
/** The top-level view selector: which screen shows, driven by the restored session, auth
    events and the callbacks of the mounted screen. */
module App {

  import opened Wrappers
  import opened Api

  datatype View = SignInView | SignUpView | OnboardingView | DashboardView | VerifyView

  /** What sign-up reports: the account needs e-mail verification, or a session exists. */
  datatype SignUpOutcome = NeedsVerify | HasSession

  datatype AppModel = AppModel(view: View, user: Option<UserId>, ready: bool)

  datatype Event =
    | SessionLoaded(session: Option<Session>)   // `getSession()` resolved
    | AuthChanged(session: Option<Session>)     // `onAuthStateChange`, also fired by sign-out
    | SignInSucceeded
    | SwitchToSignUp
    | SignUpSucceeded(outcome: SignUpOutcome)
    | SwitchToSignIn
    | OnboardingContinue                       // the onboarding screen's continue button

  /** Before anything loads: the sign-in view, no user, not ready. */
  const Initial := AppModel(SignInView, None, false)

  /** The user a session carries. */
  function SessionUser(session: Option<Session>): Option<UserId> {
    if session.Some? then session.value.user else None
  }

  /** A session decides the view: the dashboard when there is one, sign-in otherwise. */
  function FromSession(app: AppModel, session: Option<Session>): (r: AppModel)
    ensures r.view == DashboardView <==> session.Some?
    ensures r.view != DashboardView ==> r.view == SignInView
    ensures r.user == SessionUser(session) && r.ready == app.ready
  {
    app.(user := SessionUser(session), view := if session.Some? then DashboardView else SignInView)
  }

  /** What the screen shows: nothing until the session check finishes, nothing for the
      dashboard state without a user, otherwise the selected view. */
  function Screen(app: AppModel): (s: Option<View>)
    ensures s.Some? ==> app.ready && s.value == app.view
    ensures s == Some(DashboardView) ==> app.user.Some?
    ensures s.None? <==> !app.ready || (app.view == DashboardView && app.user.None?)
  {
    if !app.ready || (app.view == DashboardView && app.user.None?) then None else Some(app.view)
  }

  /** A screen's callbacks exist only while that screen is shown. */
  predicate Mounted(app: AppModel, v: View) {
    Screen(app) == Some(v)
  }

  /** An event raised by a screen's callback rather than by the auth client. */
  predicate IsCallback(ev: Event) {
    !ev.SessionLoaded? && !ev.AuthChanged?
  }

  /** The screen whose callback raises `ev`. */
  function CallbackScreen(ev: Event): View
    requires IsCallback(ev)
  {
    match ev
    case SignInSucceeded => SignInView
    case SwitchToSignUp => SignInView
    case SignUpSucceeded(_) => SignUpView
    case SwitchToSignIn => SignUpView
    case OnboardingContinue => OnboardingView
  }

  /** The onboarding screen completes only when it can read a signed-in user. */
  function OnboardingStep(app: AppModel): (r: AppModel)
    requires Mounted(app, OnboardingView)
    ensures r.view == DashboardView <==> app.user.Some?
    ensures r.user == app.user && r.ready
  {
    if app.user.Some? then app.(view := DashboardView) else app
  }

  /** One event as the code handles it: sign-up success always leads to onboarding, whatever
      the sign-up screen reported. */
  function Step(app: AppModel, ev: Event): (r: AppModel)
    ensures r.ready == (app.ready || ev.SessionLoaded?)
    ensures ev.SessionLoaded? ==> r == FromSession(app, ev.session).(ready := true)
    ensures ev.AuthChanged? ==> r == FromSession(app, ev.session)
    ensures IsCallback(ev) ==> r.user == app.user && r.ready == app.ready
    ensures IsCallback(ev) && !Mounted(app, CallbackScreen(ev)) ==> r == app
    ensures ev.SignInSucceeded? && Mounted(app, SignInView) ==> r == app.(view := DashboardView)
    ensures ev.SwitchToSignUp? && Mounted(app, SignInView) ==> r == app.(view := SignUpView)
    ensures ev.SignUpSucceeded? && Mounted(app, SignUpView) ==> r == app.(view := OnboardingView)
    ensures ev.SwitchToSignIn? && Mounted(app, SignUpView) ==> r == app.(view := SignInView)
    ensures ev.OnboardingContinue? && Mounted(app, OnboardingView) ==> r == OnboardingStep(app)
  {
    match ev
    case SessionLoaded(s) => FromSession(app, s).(ready := true)
    case AuthChanged(s) => FromSession(app, s)
    case SignInSucceeded => if Mounted(app, SignInView) then app.(view := DashboardView) else app
    case SwitchToSignUp => if Mounted(app, SignInView) then app.(view := SignUpView) else app
    case SignUpSucceeded(_) => if Mounted(app, SignUpView) then app.(view := OnboardingView) else app
    case SwitchToSignIn => if Mounted(app, SignUpView) then app.(view := SignInView) else app
    case OnboardingContinue => if Mounted(app, OnboardingView) then OnboardingStep(app) else app
  }

  /** The same, with a sign-up that needs verification routed to the verification screen. */
  function StepRouted(app: AppModel, ev: Event): (r: AppModel)
    ensures r.ready == (app.ready || ev.SessionLoaded?)
    ensures !(ev.SignUpSucceeded? && ev.outcome == NeedsVerify) ==> r == Step(app, ev)
    ensures ev == SignUpSucceeded(NeedsVerify) && Mounted(app, SignUpView) ==> r == app.(view := VerifyView)
    ensures ev == SignUpSucceeded(NeedsVerify) && !Mounted(app, SignUpView) ==> r == app
  {
    match ev
    case SignUpSucceeded(NeedsVerify) => if Mounted(app, SignUpView) then app.(view := VerifyView) else app
    case _ => Step(app, ev)
  }

  function Run(app: AppModel, evs: seq<Event>): AppModel {
    if |evs| == 0 then app else Step(Run(app, evs[..|evs| - 1]), evs[|evs| - 1])
  }

  /** Once the session check has finished the app stays ready. */
  lemma {:induction false} ReadyStays(app: AppModel, evs: seq<Event>)
    requires app.ready
    ensures Run(app, evs).ready
  {
    if |evs| > 0 {
      ReadyStays(app, evs[..|evs| - 1]);
    }
  }

  /** Nothing is shown until `getSession()` has resolved, whatever else happens first. */
  lemma {:induction false} BlankUntilSessionLoaded(evs: seq<Event>)
    requires forall i :: 0 <= i < |evs| ==> !evs[i].SessionLoaded?
    ensures !Run(Initial, evs).ready && Screen(Run(Initial, evs)).None?
  {
    if |evs| > 0 {
      BlankUntilSessionLoaded(evs[..|evs| - 1]);
    }
  }

  /** The latest auth event decides between the dashboard and sign-in, and sets the user. */
  lemma AuthEventDecides(app: AppModel, evs: seq<Event>, s: Option<Session>)
    ensures var r := Run(app, evs + [AuthChanged(s)]);
            && (r.view == DashboardView <==> s.Some?)
            && (r.view != DashboardView ==> r.view == SignInView)
            && r.user == SessionUser(s)
  {
    assert (evs + [AuthChanged(s)])[..|evs|] == evs;
  }

  /** A restored session with a user shows the dashboard; no session shows sign-in. */
  lemma RestoredSessionShowsDashboard(s: Option<Session>)
    ensures Screen(Step(Initial, SessionLoaded(s))) ==
            if s.None? then Some(SignInView)
            else if s.value.user.Some? then Some(DashboardView)
            else None
  {
  }

  /** As written: after a sign-up that needs verification the user lands on onboarding, and
      without a session its continue button never leaves it. */
  lemma SignUpNeedingVerifyIsStuck(evs: seq<Event>)
    requires forall i :: 0 <= i < |evs| ==> evs[i] == OnboardingContinue
    ensures var signedUp := AppModel(SignUpView, None, true);
            var r := Run(Step(signedUp, SignUpSucceeded(NeedsVerify)), evs);
            Screen(r) == Some(OnboardingView)
  {
    StuckOnOnboarding(Step(AppModel(SignUpView, None, true), SignUpSucceeded(NeedsVerify)), evs);
  }

  lemma {:induction false} StuckOnOnboarding(app: AppModel, evs: seq<Event>)
    requires app == AppModel(OnboardingView, None, true)
    requires forall i :: 0 <= i < |evs| ==> evs[i] == OnboardingContinue
    ensures Run(app, evs) == app
  {
    if |evs| > 0 {
      StuckOnOnboarding(app, evs[..|evs| - 1]);
    }
  }

  /** Corrected: a sign-up needing verification shows the verification screen, and one with a
      session goes on to onboarding as before. */
  lemma SignUpRouted(app: AppModel, outcome: SignUpOutcome)
    requires Mounted(app, SignUpView)
    ensures Screen(StepRouted(app, SignUpSucceeded(outcome)))
            == Some(if outcome == NeedsVerify then VerifyView else OnboardingView)
  {
  }
}

=== FILE: arith.dfy ===
/** Facts about products that the solver does not find on its own. */
module Arith {

  /** Cancelling a positive factor from a strict product inequality. */
  lemma CancelLess(c: int, a: int, b: int)
    requires c > 0 && c * a < c * b
    ensures a < b
  {
    assert c * b - c * a == c * (b - a);
  }

  /** Quotient and remainder are determined by `n == k * q + r` with `0 <= r < k`. */
  lemma DivUnique(n: int, k: int, q: int, r: int)
    requires k > 0 && 0 <= r < k && n == k * q + r
    ensures n / k == q && n % k == r
  {
    var q', r' := n / k, n % k;
    assert k * q' + r' == n;
    assert k * (q - q') == r' - r;
    CancelLess(k, q - q', 1);
    CancelLess(k, q' - q, 1);
  }

  /** Multiplying by a positive factor keeps order. */
  lemma MulMonotone(c: int, a: int, b: int)
    requires c > 0 && a <= b
    ensures c * a <= c * b
  {
    assert c * b - c * a == c * (b - a);
  }
}

=== FILE: calendar.dfy ===
/** Gregorian calendar days as integer ordinals.

    A `Day` counts days from 1970-01-01 (day 0), which was a Thursday. Months are numbered
    0..11 as `Date.prototype.getMonth` numbers them, and weekdays 0..6 from Sunday as
    `Date.prototype.getDay` does. */
module Calendar {

  import opened Arith

  type Day = int

  /** A month number as `getMonth` returns it: 0 is January, 11 is December. */
  type Month = m: int | 0 <= m < 12

  /** 1970-01-01, day 0, was a Thursday. */
  const EpochWeekday: int := 4

  /** `getDay()`: 0 is Sunday, 6 is Saturday. */
  function Weekday(d: Day): (w: int)
    ensures 0 <= w < 7
  {
    (d + EpochWeekday) % 7
  }

  /** The Sunday-first short names indexed by `getDay()`. */
  const DayNames: seq<string> := ["Sun", "Mon", "Tue", "Wed", "Thu", "Fri", "Sat"]

  function DayName(d: Day): string {
    DayNames[Weekday(d)]
  }

  /** Consecutive days have consecutive weekdays, Saturday wrapping to Sunday. */
  lemma WeekdayNext(d: Day)
    ensures Weekday(d + 1) == if Weekday(d) == 6 then 0 else Weekday(d) + 1
  {
  }

  predicate IsLeap(y: int) {
    y % 4 == 0 && (y % 100 != 0 || y % 400 == 0)
  }

  function YearLength(y: int): int {
    if IsLeap(y) then 366 else 365
  }

  /** `new Date(y, m + 1, 0).getDate()`: the length of month `m` of year `y`. */
  function DaysInMonth(y: int, m: Month): (n: int)
    ensures 28 <= n <= 31
    ensures n == 29 <==> m == 1 && IsLeap(y)
  {
    if m == 1 then (if IsLeap(y) then 29 else 28)
    else if m == 3 || m == 5 || m == 8 || m == 10 then 30
    else 31
  }

  /** Days of year `y` that precede month `m` (m == 12 gives the whole year). */
  function DaysBeforeMonth(y: int, m: int): int
    requires 0 <= m <= 12
  {
    [0, 31, 59, 90, 120, 151, 181, 212, 243, 273, 304, 334, 365][m]
      + (if m >= 2 && IsLeap(y) then 1 else 0)
  }

  lemma DaysBeforeMonthStep(y: int, m: Month)
    ensures DaysBeforeMonth(y, m + 1) == DaysBeforeMonth(y, m) + DaysInMonth(y, m)
  {
  }

  lemma DaysBeforeMonthYear(y: int)
    ensures DaysBeforeMonth(y, 0) == 0
    ensures DaysBeforeMonth(y, 12) == YearLength(y)
  {
  }

  /** Leap years among 1..n when n >= 0, extended to all n by floor division. */
  function LeapsThrough(n: int): int {
    n / 4 - n / 100 + n / 400
  }

  /** The ordinal of 1 January of year `y`. */
  function DaysBeforeYear(y: int): Day {
    365 * (y - 1970) + LeapsThrough(y - 1) - LeapsThrough(1969)
  }

  /** Floor division by `k` steps up by one exactly at the multiples of `k`. */
  lemma FloorStep(y: int, k: int)
    requires k > 0
    ensures y / k - (y - 1) / k == if y % k == 0 then 1 else 0
  {
    var q, r := (y - 1) / k, (y - 1) % k;
    if r == k - 1 {
      DivUnique(y, k, q + 1, 0);
    } else {
      DivUnique(y, k, q, r + 1);
    }
  }

  lemma LeapsStep(y: int)
    ensures LeapsThrough(y) - LeapsThrough(y - 1) == if IsLeap(y) then 1 else 0
  {
    FloorStep(y, 4);
    FloorStep(y, 100);
    FloorStep(y, 400);
  }

  /** Consecutive years start one year length apart. */
  lemma YearStep(y: int)
    ensures DaysBeforeYear(y + 1) == DaysBeforeYear(y) + YearLength(y)
  {
    LeapsStep(y);
  }

  datatype YearMonth = YearMonth(year: int, month: Month)

  /** Months numbered consecutively across years. */
  function MonthIndex(ym: YearMonth): int {
    12 * ym.year + ym.month
  }

  function FirstDay(ym: YearMonth): Day {
    DaysBeforeYear(ym.year) + DaysBeforeMonth(ym.year, ym.month)
  }

  function MonthLength(ym: YearMonth): int {
    DaysInMonth(ym.year, ym.month)
  }

  function LastDay(ym: YearMonth): (d: Day)
    ensures d - FirstDay(ym) + 1 == MonthLength(ym)
  {
    FirstDay(ym) + MonthLength(ym) - 1
  }

  /** `new Date(y, m + 1, 1)`: the following month, December rolling over to January. */
  function NextMonth(ym: YearMonth): (r: YearMonth)
    ensures MonthIndex(r) == MonthIndex(ym) + 1
  {
    if ym.month == 11 then YearMonth(ym.year + 1, 0) else YearMonth(ym.year, ym.month + 1)
  }

  /** `new Date(y, m - 1, 1)`: the preceding month, January rolling back to December. */
  function PrevMonth(ym: YearMonth): (r: YearMonth)
    ensures MonthIndex(r) == MonthIndex(ym) - 1
  {
    if ym.month == 0 then YearMonth(ym.year - 1, 11) else YearMonth(ym.year, ym.month - 1)
  }

  /** Distinct months have distinct indices. */
  lemma MonthIndexInjective(a: YearMonth, b: YearMonth)
    requires MonthIndex(a) == MonthIndex(b)
    ensures a == b
  {
  }

  lemma NextPrevInverse(ym: YearMonth)
    ensures PrevMonth(NextMonth(ym)) == ym
    ensures NextMonth(PrevMonth(ym)) == ym
  {
  }

  /** The month after `ym` starts the day after `ym`'s last day. */
  lemma FirstOfNextMonth(ym: YearMonth)
    ensures FirstDay(NextMonth(ym)) == FirstDay(ym) + MonthLength(ym)
  {
    if ym.month == 11 {
      YearStep(ym.year);
    } else {
      DaysBeforeMonthStep(ym.year, ym.month);
    }
  }

  /** An earlier month ends before a later one begins. */
  lemma {:induction false} MonthsOrdered(a: YearMonth, b: YearMonth)
    requires MonthIndex(a) < MonthIndex(b)
    ensures FirstDay(a) + MonthLength(a) <= FirstDay(b)
    decreases MonthIndex(b) - MonthIndex(a)
  {
    var p := PrevMonth(b);
    NextPrevInverse(b);
    FirstOfNextMonth(p);
    if MonthIndex(p) == MonthIndex(a) {
      MonthIndexInjective(p, a);
    } else {
      MonthsOrdered(a, p);
    }
  }

  /** A date as `getFullYear`, `getMonth` and `getDate` report it. */
  datatype Civil = Civil(year: int, month: Month, day: int)

  predicate ValidCivil(c: Civil) {
    1 <= c.day <= DaysInMonth(c.year, c.month)
  }

  function MonthOfCivil(c: Civil): YearMonth {
    YearMonth(c.year, c.month)
  }

  /** The ordinal of a calendar date. */
  function ToDay(c: Civil): Day {
    FirstDay(MonthOfCivil(c)) + c.day - 1
  }

  /** The year holding day `d`, searching upwards from year `y`. */
  function YearUp(y: int, d: Day): (r: int)
    requires DaysBeforeYear(y) <= d
    ensures DaysBeforeYear(r) <= d < DaysBeforeYear(r + 1)
    decreases d - DaysBeforeYear(y)
  {
    YearStep(y);
    if d < DaysBeforeYear(y + 1) then y else YearUp(y + 1, d)
  }

  /** The year holding day `d`, searching downwards from year `y`. */
  function YearDown(y: int, d: Day): (r: int)
    requires d < DaysBeforeYear(y + 1)
    ensures DaysBeforeYear(r) <= d < DaysBeforeYear(r + 1)
    decreases DaysBeforeYear(y + 1) - d
  {
    YearStep(y);
    YearStep(y - 1);
    if DaysBeforeYear(y) <= d then y else YearDown(y - 1, d)
  }

  function YearOf(d: Day): (r: int)
    ensures DaysBeforeYear(r) <= d < DaysBeforeYear(r + 1)
  {
    if d >= 0 then YearUp(1970, d) else YearDown(1969, d)
  }

  /** The month of year `y` holding day `d`, searching upwards from month `m`. */
  function MonthUp(y: int, m: Month, d: Day): (r: Month)
    requires DaysBeforeYear(y) + DaysBeforeMonth(y, m) <= d < DaysBeforeYear(y + 1)
    ensures FirstDay(YearMonth(y, r)) <= d < FirstDay(YearMonth(y, r)) + DaysInMonth(y, r)
    decreases 12 - m
  {
    DaysBeforeMonthStep(y, m);
    YearStep(y);
    DaysBeforeMonthYear(y);
    if d < DaysBeforeYear(y) + DaysBeforeMonth(y, m + 1) then m else MonthUp(y, m + 1, d)
  }

  /** The calendar date of day `d`. */
  function ToCivil(d: Day): (c: Civil)
    ensures ValidCivil(c) && ToDay(c) == d
  {
    var y := YearOf(d);
    DaysBeforeMonthYear(y);
    var m := MonthUp(y, 0, d);
    Civil(y, m, d - FirstDay(YearMonth(y, m)) + 1)
  }

  /** A day lies in exactly one month. */
  lemma MonthUnique(a: YearMonth, b: YearMonth, d: Day)
    requires FirstDay(a) <= d < FirstDay(a) + MonthLength(a)
    requires FirstDay(b) <= d < FirstDay(b) + MonthLength(b)
    ensures a == b
  {
    if MonthIndex(a) < MonthIndex(b) {
      MonthsOrdered(a, b);
    } else if MonthIndex(b) < MonthIndex(a) {
      MonthsOrdered(b, a);
    } else {
      MonthIndexInjective(a, b);
    }
  }

  /** Converting a valid date to its ordinal and back gives the same date. */
  lemma CivilRoundTrip(c: Civil)
    requires ValidCivil(c)
    ensures ToCivil(ToDay(c)) == c
  {
    var r := ToCivil(ToDay(c));
    MonthUnique(MonthOfCivil(r), MonthOfCivil(c), ToDay(c));
  }

  /** Later dates have larger ordinals: ordinals follow (year, month, day) order. */
  lemma ToDayMonotone(a: Civil, b: Civil)
    requires ValidCivil(a) && ValidCivil(b)
    requires a.year < b.year || (a.year == b.year && a.month < b.month)
      || (a.year == b.year && a.month == b.month && a.day < b.day)
    ensures ToDay(a) < ToDay(b)
  {
    if MonthOfCivil(a) != MonthOfCivil(b) {
      MonthsOrdered(MonthOfCivil(a), MonthOfCivil(b));
    }
  }

  function MonthOf(d: Day): YearMonth {
    MonthOfCivil(ToCivil(d))
  }

  /** The month of a day is the month whose first..last range holds it. */
  lemma MonthOfContains(d: Day, ym: YearMonth)
    ensures MonthOf(d) == ym <==> FirstDay(ym) <= d <= LastDay(ym)
  {
    if FirstDay(ym) <= d <= LastDay(ym) {
      MonthUnique(MonthOf(d), ym, d);
    }
  }

  /** The calendar date after `c`, rolling over month and year ends. */
  function NextCivil(c: Civil): Civil {
    if c.day < DaysInMonth(c.year, c.month) then Civil(c.year, c.month, c.day + 1)
    else if c.month < 11 then Civil(c.year, c.month + 1, 1)
    else Civil(c.year + 1, 0, 1)
  }

  /** The next calendar date is a valid date one ordinal later. */
  lemma NextCivilIsNextDay(c: Civil)
    requires ValidCivil(c)
    ensures ValidCivil(NextCivil(c)) && ToDay(NextCivil(c)) == ToDay(c) + 1
  {
    FirstOfNextMonth(MonthOfCivil(c));
  }

  /** The day of the month of the next day is one more, or 1 when a new month starts. */
  lemma DayOfMonthNext(d: Day)
    ensures ToCivil(d + 1).day == ToCivil(d).day + 1 || ToCivil(d + 1).day == 1
  {
    var c := ToCivil(d);
    NextCivilIsNextDay(c);
    CivilRoundTrip(NextCivil(c));
    assert ToCivil(d + 1) == NextCivil(c);
  }

  /** 1 January 2024 was a Monday: the ordinals agree with the real calendar. */
  lemma KnownWeekday()
    ensures ToDay(Civil(1970, 0, 1)) == 0
    ensures Weekday(ToDay(Civil(2024, 0, 1))) == 1
    ensures Weekday(ToDay(Civil(2000, 1, 29))) == 2
  {
    assert DaysBeforeYear(2024) == 19723;
    assert DaysBeforeYear(2000) == 10957;
  }
}

=== FILE: dashboard.dfy ===
/** The dashboard's local state: the ten-day window, the tasks with their completion maps, the
    add/toggle/delete handlers, the count of tasks done today and the journal map. */
module Dashboard {

  import opened Wrappers
  import opened Calendar
  import opened Seqs
  import opened Text
  import opened Api
  import opened TaskGrid
  import opened TodayJournal
  import MonthlyTracker

  // ----- The ten-day window -----------------------------------------------------------------

  /** The column for day `d`: its ISO date, weekday name and day of the month. */
  function Column(d: Day): (g: GridDay)
    ensures g.date == d && g.dayName == DayName(d)
    ensures 1 <= g.dayNum <= 31
  {
    GridDay(d, DayName(d), ToCivil(d).day)
  }

  /** The days from three before today to six after. */
  function DayWindow(today: Day): (days: seq<GridDay>)
    ensures |days| == 10 && forall i :: 0 <= i < 10 ==> days[i] == Column(today - 3 + i)
    ensures days[3].date == today
  {
    seq(10, i requires 0 <= i < 10 => Column(today - 3 + i))
  }

  /** Column `b` is the day after column `a`: the weekday advances, Saturday wrapping to Sunday,
      and the day of the month advances or starts again at 1. */
  predicate Follows(a: GridDay, b: GridDay) {
    && b.date == a.date + 1
    && b.dayName == DayNames[if Weekday(a.date) == 6 then 0 else Weekday(a.date) + 1]
    && (b.dayNum == a.dayNum + 1 || b.dayNum == 1)
  }

  lemma ColumnNext(d: Day)
    ensures Follows(Column(d), Column(d + 1))
  {
    var a, b := Column(d), Column(d + 1);
    WeekdayNext(d);
    assert b.dayName == DayNames[if Weekday(a.date) == 6 then 0 else Weekday(a.date) + 1];
    DayOfMonthNext(d);
    assert b.dayNum == a.dayNum + 1 || b.dayNum == 1;
  }

  /** Neighbouring columns of the window are consecutive days. */
  lemma WindowConsecutive(today: Day, i: nat)
    requires i < 9
    ensures Follows(DayWindow(today)[i], DayWindow(today)[i + 1])
  {
    ColumnNext(today - 3 + i);
  }

  // ----- Mapping completion rows onto tasks -------------------------------------------------

  /** A task fresh from the server, with no completions recorded. */
  function Fresh(row: TaskRow): (t: Task)
    ensures t.id == row.id && t.title == row.title && t.completionByDate == map[]
  {
    Task(row.id, row.title, map[])
  }

  function FreshAll(rows: seq<TaskRow>): (ts: seq<Task>)
    ensures |ts| == |rows| && forall i :: 0 <= i < |rows| ==> ts[i] == Fresh(rows[i])
  {
    seq(|rows|, i requires 0 <= i < |rows| => Fresh(rows[i]))
  }

  /** `mapped.find(t => t.id === c.task_id)`: the first task with that id, if any. */
  function FindTask(tasks: seq<Task>, id: TaskId): (r: Option<nat>)
    ensures r.Some? ==> r.value < |tasks| && tasks[r.value].id == id
    ensures r.Some? ==> forall j :: 0 <= j < r.value ==> tasks[j].id != id
    ensures r.None? ==> forall j :: 0 <= j < |tasks| ==> tasks[j].id != id
  {
    if |tasks| == 0 then None
    else if tasks[0].id == id then Some(0)
    else match FindTask(tasks[1..], id)
      case None => None
      case Some(k) => Some(k + 1)
  }

  /** One row of the `forEach`: record `completed` under the row's date on the first task with
      the row's id; a row for an unknown task changes nothing. */
  function ApplyRow(tasks: seq<Task>, c: CompletionRow): (r: seq<Task>)
    ensures |r| == |tasks|
    ensures forall i :: 0 <= i < |tasks| ==> r[i].id == tasks[i].id && r[i].title == tasks[i].title
  {
    match FindTask(tasks, c.taskId)
    case None => tasks
    case Some(k) =>
      tasks[k := tasks[k].(completionByDate := tasks[k].completionByDate[IsoKey(c.date) := c.completed])]
  }

  /** The `forEach` over the rows, in order. */
  function ApplyRows(tasks: seq<Task>, rows: seq<CompletionRow>): (r: seq<Task>)
    ensures |r| == |tasks|
    ensures forall i :: 0 <= i < |tasks| ==> r[i].id == tasks[i].id && r[i].title == tasks[i].title
  {
    if |rows| == 0 then tasks else ApplyRow(ApplyRows(tasks, rows[..|rows| - 1]), rows[|rows| - 1])
  }

  /** The value the last row for task `id` and day `d` carries, if there is one. */
  function LastWrite(rows: seq<CompletionRow>, id: TaskId, d: Day): Option<bool> {
    if |rows| == 0 then None
    else if rows[|rows| - 1].taskId == id && rows[|rows| - 1].date == d then Some(rows[|rows| - 1].completed)
    else LastWrite(rows[..|rows| - 1], id, d)
  }

  /** What a task's map holds under `key`. */
  function Entry(t: Task, key: DateKey): Option<bool> {
    if key in t.completionByDate then Some(t.completionByDate[key]) else None
  }

  /** Whether task `k` is the first one carrying its id. */
  predicate FirstOfId(tasks: seq<Task>, k: nat)
    requires k < |tasks|
  {
    forall j :: 0 <= j < k ==> tasks[j].id != tasks[k].id
  }

  /** The mapping by induction on the rows: for the first task with a given id, the entry for a
      day is the last row's value; later tasks with a repeated id keep an empty map; and no
      locale-spelled key is ever written. */
  lemma {:induction false} ApplyRowsIsLastWrite(base: seq<Task>, rows: seq<CompletionRow>, k: nat, d: Day)
    requires k < |base|
    requires forall i :: 0 <= i < |base| ==> base[i].completionByDate == map[]
    ensures var r := ApplyRows(base, rows);
            && Entry(r[k], IsoKey(d)) == (if FirstOfId(base, k) then LastWrite(rows, base[k].id, d) else None)
            && LocaleKey(d) !in r[k].completionByDate
  {
    if |rows| > 0 {
      var init := rows[..|rows| - 1];
      var c := rows[|rows| - 1];
      var prev := ApplyRows(base, init);
      ApplyRowsIsLastWrite(base, init, k, d);
      match FindTask(prev, c.taskId)
      case None =>
      case Some(j) =>
        if j == k {
          assert FirstOfId(base, k);
        }
    }
  }

  /** `load`: fresh tasks from the task query, then every completion row applied in order; a
      missing result counts as empty. */
  function MapCompletions(tasksData: Option<seq<TaskRow>>, comps: Option<seq<CompletionRow>>): (tasks: seq<Task>)
    ensures |tasks| == |tasksData.GetOr([])|
    ensures forall i :: 0 <= i < |tasks| ==> tasks[i].id == tasksData.GetOr([])[i].id
  {
    ApplyRows(FreshAll(tasksData.GetOr([])), comps.GetOr([]))
  }

  /** The mapped tasks hold only ISO keys, as the calendar's statistics expect. */
  lemma MappedKeysAreIso(tasksData: Option<seq<TaskRow>>, comps: Option<seq<CompletionRow>>)
    ensures MonthlyTracker.OnlyIsoKeys(MapCompletions(tasksData, comps))
  {
    var base := FreshAll(tasksData.GetOr([]));
    var rows := comps.GetOr([]);
    forall i, d | 0 <= i < |base|
      ensures LocaleKey(d) !in ApplyRows(base, rows)[i].completionByDate
    {
      ApplyRowsIsLastWrite(base, rows, i, d);
    }
  }

  // ----- Handlers ---------------------------------------------------------------------------

  /** The dashboard state the handlers change. */
  datatype State = State(tasks: seq<Task>, newTaskTitle: string, journalEntries: map<Day, JournalEntry>)

  /** `handleAddTask`: a blank title is ignored; otherwise the trimmed title is sent, and the row
      the server returns, if any, is appended as a task with an empty map and the input cleared. */
  function AddTask(s: State, created: Option<TaskRow>): (r: State)
    ensures AllSpace(s.newTaskTitle) || created.None? ==> r == s
    ensures !AllSpace(s.newTaskTitle) && created.Some? ==>
              r.tasks == s.tasks + [Fresh(created.value)] && r.newTaskTitle == ""
              && r.journalEntries == s.journalEntries
  {
    TrimEmptyIffBlank(s.newTaskTitle);
    if Trim(s.newTaskTitle) == "" then s
    else match created
      case None => s
      case Some(row) => s.(tasks := s.tasks + [Fresh(row)], newTaskTitle := "")
  }

  /** The title sent to the server is the trimmed input, and it is never blank. */
  lemma AddTaskSendsTrimmed(s: State, session: Option<Session>, table: seq<TaskRow>, freshId: TaskId, writeError: Option<string>)
    requires !AllSpace(s.newTaskTitle)
    requires CreateTask(session, table, Trim(s.newTaskTitle), freshId, writeError).Success?
    ensures var row := CreateTask(session, table, Trim(s.newTaskTitle), freshId, writeError).value.row;
            var r := AddTask(s, Some(row));
            r.tasks[|s.tasks|].title == Trim(s.newTaskTitle) && Trim(s.newTaskTitle) != ""
  {
    TrimEmptyIffBlank(s.newTaskTitle);
  }

  /** JavaScript truthiness of `completionByDate?.[key]`: absent counts as false. */
  predicate Truthy(t: Task, key: DateKey) {
    key in t.completionByDate && t.completionByDate[key]
  }

  /** The local flip for one task. */
  function Flip(t: Task, taskId: TaskId, date: Day): (r: Task)
    ensures r.id == t.id && r.title == t.title
  {
    if t.id == taskId
    then t.(completionByDate := t.completionByDate[IsoKey(date) := !Truthy(t, IsoKey(date))])
    else t
  }

  /** `handleToggleCompletion`'s local update: every task with the id gets the negation of its
      entry for the date (absent becomes `true`); nothing else changes. */
  function ToggleLocal(tasks: seq<Task>, taskId: TaskId, date: Day): (r: seq<Task>)
    ensures |r| == |tasks|
    ensures forall i :: 0 <= i < |tasks| ==> r[i] == Flip(tasks[i], taskId, date)
  {
    if |tasks| == 0 then [] else [Flip(tasks[0], taskId, date)] + ToggleLocal(tasks[1..], taskId, date)
  }

  /** The local flip seen from the grid: the target cell's check mark flips and every other cell
      of every task keeps its value. */
  lemma ToggleLocalFlipsCell(tasks: seq<Task>, taskId: TaskId, date: Day, i: nat, key: DateKey)
    requires i < |tasks|
    ensures var r := ToggleLocal(tasks, taskId, date);
            if tasks[i].id == taskId && key == IsoKey(date)
            then IsCompleted(r[i], date) == !IsCompleted(tasks[i], date)
            else Entry(r[i], key) == Entry(tasks[i], key)
  {
  }

  /** Toggling twice restores every check mark, though an absent entry comes back as `false`. */
  lemma ToggleLocalTwice(tasks: seq<Task>, taskId: TaskId, date: Day, i: nat, d: Day)
    requires i < |tasks|
    ensures IsCompleted(ToggleLocal(ToggleLocal(tasks, taskId, date), taskId, date)[i], d)
            == IsCompleted(tasks[i], d)
  {
  }

  /** `handleToggleCompletion`: awaits `toggleCompletion`, then flips the cell locally. A missing
      user makes `getUserId` throw inside that await, so the handler stops before the flip. An
      error the API returns as a value is not inspected, and the cell flips regardless. */
  function HandleToggle(s: State, taskId: TaskId, date: Day, outcome: Result<seq<CompletionRow>, ApiError>): (r: State)
    ensures outcome == Failure(NotAuthenticated) ==> r == s
    ensures outcome != Failure(NotAuthenticated) ==>
              r.tasks == ToggleLocal(s.tasks, taskId, date)
              && r.newTaskTitle == s.newTaskTitle && r.journalEntries == s.journalEntries
  {
    if outcome == Failure(NotAuthenticated) then s
    else s.(tasks := ToggleLocal(s.tasks, taskId, date))
  }

  /** Without a session the screen does not change: the thrown error ends the handler first. */
  lemma NoSessionNoLocalChange(s: State, table: seq<CompletionRow>, taskId: TaskId, date: Day, freshId: nat,
                               writeError: Option<string>)
    ensures HandleToggle(s, taskId, date, ToggleCompletion(None, table, taskId, date, freshId, writeError)) == s
  {
  }

  /** When the API returns an error instead of throwing (the lookup finds several rows, or the
      backend refuses the write), the server's table is not replaced, yet the grid shows the
      cell flipped. */
  lemma ToggleDivergesOnReturnedError(s: State, session: Option<Session>, table: seq<CompletionRow>, taskId: TaskId,
                                      date: Day, freshId: nat, writeError: Option<string>, i: nat)
    requires GetUserId(session).Success?
    requires LookupCompletion(table, taskId, date).LookupFailed? || writeError.Some?
    requires i < |s.tasks| && s.tasks[i].id == taskId
    ensures var outcome := ToggleCompletion(session, table, taskId, date, freshId, writeError);
            outcome.Failure? && outcome.error.Backend?
            && IsCompleted(HandleToggle(s, taskId, date, outcome).tasks[i], date) == !IsCompleted(s.tasks[i], date)
  {
  }

  /** `handleDeleteTask`'s local update: drop every task with the id, keeping the others in
      order. */
  function DeleteLocal(tasks: seq<Task>, id: TaskId): (r: seq<Task>)
    ensures forall t :: t in r <==> t in tasks && t.id != id
    ensures forall t :: multiset(r)[t] == if t.id != id then multiset(tasks)[t] else 0
    ensures IsSubsequence(r, tasks)
  {
    FilterIsSubsequence(tasks, (t: Task) => t.id != id);
    FilterCountsAll(tasks, (t: Task) => t.id != id);
    Filter(tasks, (t: Task) => t.id != id)
  }

  /** Deleting again changes nothing, and tasks without the id all survive. */
  lemma DeleteLocalIdempotent(tasks: seq<Task>, id: TaskId)
    ensures DeleteLocal(DeleteLocal(tasks, id), id) == DeleteLocal(tasks, id)
    ensures (forall i :: 0 <= i < |tasks| ==> tasks[i].id != id) ==> DeleteLocal(tasks, id) == tasks
  {
    FilterIdempotent(tasks, (t: Task) => t.id != id);
    if forall i :: 0 <= i < |tasks| ==> tasks[i].id != id {
      FilterKeepsAll(tasks, (t: Task) => t.id != id);
    }
  }

  // ----- Today's count ----------------------------------------------------------------------

  /** `todayCompleted`: the tasks whose entry for today is truthy. */
  function TodayCompleted(tasks: seq<Task>, today: Day): (n: nat)
    ensures n == |Filter(tasks, (t: Task) => Truthy(t, IsoKey(today)))|
    ensures n <= |tasks|
  {
    if |tasks| == 0 then 0
    else (if Truthy(tasks[0], IsoKey(today)) then 1 else 0) + TodayCompleted(tasks[1..], today)
  }

  /** With the id held by exactly one task, a toggle for today moves the count by one: down if
      that task was done, up otherwise. */
  lemma {:induction false} TodayCountAfterToggle(tasks: seq<Task>, taskId: TaskId, today: Day, k: nat)
    requires k < |tasks| && tasks[k].id == taskId
    requires forall i :: 0 <= i < |tasks| && i != k ==> tasks[i].id != taskId
    ensures TodayCompleted(ToggleLocal(tasks, taskId, today), today)
            == if Truthy(tasks[k], IsoKey(today)) then TodayCompleted(tasks, today) - 1
               else TodayCompleted(tasks, today) + 1
  {
    var r := ToggleLocal(tasks, taskId, today);
    assert r[1..] == ToggleLocal(tasks[1..], taskId, today);
    if k == 0 {
      ToggleElsewhereKeepsCount(tasks[1..], taskId, today);
    } else {
      TodayCountAfterToggle(tasks[1..], taskId, today, k - 1);
    }
  }

  /** A toggle for a task id nobody carries leaves the count alone. */
  lemma {:induction false} ToggleElsewhereKeepsCount(tasks: seq<Task>, taskId: TaskId, today: Day)
    requires forall i :: 0 <= i < |tasks| ==> tasks[i].id != taskId
    ensures TodayCompleted(ToggleLocal(tasks, taskId, today), today) == TodayCompleted(tasks, today)
  {
    if |tasks| > 0 {
      var r := ToggleLocal(tasks, taskId, today);
      assert r[1..] == ToggleLocal(tasks[1..], taskId, today);
      ToggleElsewhereKeepsCount(tasks[1..], taskId, today);
    }
  }

  // ----- Journals ---------------------------------------------------------------------------

  /** Every stored entry carries the date it is stored under. */
  predicate JournalsWellFormed(journals: map<Day, JournalEntry>) {
    forall d :: d in journals ==> journals[d].date == d
  }

  /** The local update `handleUpdateJournal` makes after the server call: the entry for `date`
      becomes `{date, title, content}`; other dates keep theirs. */
  function UpdateJournal(journals: map<Day, JournalEntry>, date: Day, content: string, title: string)
    : (r: map<Day, JournalEntry>)
    ensures r.Keys == journals.Keys + {date}
    ensures r[date] == JournalEntry(date, content, title)
    ensures forall d :: d in journals && d != date ==> r[d] == journals[d]
    ensures JournalsWellFormed(journals) ==> JournalsWellFormed(r)
  {
    journals[date := JournalEntry(date, content, title)]
  }

  /** `handleUpdateJournal`: awaits `upsertJournal`, then applies the local update. Without a user
      the await throws and the map is left as it was; an error the API returns as a value is not
      inspected, and the local update happens regardless. */
  function HandleUpdateJournal(journals: map<Day, JournalEntry>, date: Day, content: string, title: string,
                               outcome: Result<map<(UserId, Day), JournalRow>, ApiError>)
    : (r: map<Day, JournalEntry>)
    ensures outcome == Failure(NotAuthenticated) ==> r == journals
    ensures outcome != Failure(NotAuthenticated) ==> r == UpdateJournal(journals, date, content, title)
  {
    if outcome == Failure(NotAuthenticated) then journals else UpdateJournal(journals, date, content, title)
  }

  /** Without a session a save leaves the local entries as they were. */
  lemma NoSessionKeepsJournals(journals: map<Day, JournalEntry>, server: map<(UserId, Day), JournalRow>, date: Day,
                               content: string, title: string, writeError: Option<string>)
    ensures HandleUpdateJournal(journals, date, content, title, UpsertJournal(None, server, date, title, content, writeError))
            == journals
  {
  }

  /** A save the backend refuses returns an error, so the server keeps its rows, while the local
      entry for the day shows the new text. */
  lemma RefusedSaveDiverges(session: Option<Session>, journals: map<Day, JournalEntry>,
                            server: map<(UserId, Day), JournalRow>, date: Day, content: string, title: string, msg: string)
    requires GetUserId(session).Success?
    ensures var outcome := UpsertJournal(session, server, date, title, content, Some(msg));
            outcome == Failure(Backend(msg))
            && HandleUpdateJournal(journals, date, content, title, outcome)[date] == JournalEntry(date, content, title)
  {
  }

  /** The first journal load: a row found for today is stored under today. */
  function LoadTodayJournal(journals: map<Day, JournalEntry>, today: Day, data: Option<JournalRow>)
    : (r: map<Day, JournalEntry>)
    ensures data.None? ==> r == journals
    ensures data.Some? ==> r == UpdateJournal(journals, today, data.value.content, data.value.title)
  {
    match data
    case None => journals
    case Some(row) => journals[today := JournalEntry(today, row.content, row.title)]
  }

  /** `todayJournal`: the stored entry for today, or an empty one. */
  function TodayJournalOf(journals: map<Day, JournalEntry>, today: Day): (e: JournalEntry)
    ensures JournalsWellFormed(journals) ==> e.date == today
    ensures today in journals ==> e == journals[today]
    ensures today !in journals ==> e == JournalEntry(today, "", "")
  {
    if today in journals then journals[today] else JournalEntry(today, "", "")
  }

  /** After a save that the server accepts, the server's row for the day and the local entry
      carry the same title and content. */
  lemma SavedJournalMatchesServer(session: Option<Session>, server: map<(UserId, Day), JournalRow>,
                                  journals: map<Day, JournalEntry>, date: Day, content: string, title: string,
                                  writeError: Option<string>)
    requires UpsertJournal(session, server, date, title, content, writeError).Success?
    ensures var outcome := UpsertJournal(session, server, date, title, content, writeError);
            var user := GetUserId(session).value;
            var row := GetJournal(outcome.value, user, date);
            var local := TodayJournalOf(HandleUpdateJournal(journals, date, content, title, outcome), date);
            row.Some? && row.value.title == local.title && row.value.content == local.content
  {
  }

  // ----- Loads ------------------------------------------------------------------------------

  /** The progress chart's load: `getProgress` from six days before today through today. */
  method LoadProgress(tasksData: Option<seq<TaskRow>>, comps: Option<seq<CompletionRow>>, today: Day)
    returns (res: seq<DailyProgress>)
    ensures |res| == 7
    ensures forall i :: 0 <= i < 7 ==> res[i].date == today - 6 + i && res[i].day == DayName(today - 6 + i)
  {
    res := GetProgress(tasksData, comps, today - 6, today);
  }

  /** The task load: completions of the last thirty days mapped onto the tasks, so every stored
      entry is for a day in that range. */
  lemma LoadedEntriesInRange(tasksData: Option<seq<TaskRow>>, table: seq<CompletionRow>, today: Day, k: nat, d: Day)
    requires k < |tasksData.GetOr([])|
    requires IsoKey(d) in MapCompletions(tasksData, Some(GetCompletions(table, today - 30, today)))[k].completionByDate
    ensures today - 30 <= d <= today
  {
    var rows := GetCompletions(table, today - 30, today);
    var base := FreshAll(tasksData.GetOr([]));
    ApplyRowsIsLastWrite(base, rows, k, d);
    LastWriteFrom(rows, base[k].id, d);
  }

  /** A last write comes from some row with that task and date. */
  lemma {:induction false} LastWriteFrom(rows: seq<CompletionRow>, id: TaskId, d: Day)
    requires LastWrite(rows, id, d).Some?
    ensures exists c :: c in rows && c.taskId == id && c.date == d
  {
    var n := |rows|;
    if rows[n - 1].taskId == id && rows[n - 1].date == d {
      assert rows[n - 1] in rows;
    } else {
      LastWriteFrom(rows[..n - 1], id, d);
      var c :| c in rows[..n - 1] && c.taskId == id && c.date == d;
      assert c in rows;
    }
  }

  // ----- The auth guard ---------------------------------------------------------------------

  datatype Screen = Nothing | PleaseSignIn | Main

  /** What the dashboard renders before its state hooks: nothing until the session check has
      finished, a sign-in prompt without a user, otherwise the dashboard. */
  function Guard(authReady: bool, user: Option<UserId>): (s: Screen)
    ensures s == Main <==> authReady && user.Some?
    ensures s == Nothing <==> !authReady
  {
    if !authReady then Nothing else if user.None? then PleaseSignIn else Main
  }

  // ----- Hook order ---------------------------------------------------------------------------

  /** The hooks above the early returns: the `authReady` and `user` states and the auth effect. */
  const GuardHooks: nat := 3
  /** The hooks below them: seven states and four effects. */
  const BodyHooks: nat := 11

  /** Where the state hooks sit: below the early returns, as written, or hoisted above them. */
  datatype HookLayout = BelowReturns | Hoisted

  /** The number of hooks one render calls. */
  function HooksCalled(layout: HookLayout, authReady: bool, user: Option<UserId>): (n: nat)
    ensures layout.Hoisted? ==> n == GuardHooks + BodyHooks
    ensures layout.BelowReturns? ==> (n == GuardHooks <==> Guard(authReady, user) != Main)
  {
    if layout.Hoisted? || Guard(authReady, user) == Main then GuardHooks + BodyHooks else GuardHooks
  }

  /** A re-render of the mounted dashboard. React requires every render to call as many hooks as
      the first one (`authReady` false, no user yet) and throws otherwise, shown as `None`. */
  function Rerender(layout: HookLayout, authReady: bool, user: Option<UserId>): (r: Option<Screen>)
    ensures r.Some? ==> r.value == Guard(authReady, user)
  {
    if HooksCalled(layout, authReady, user) == HooksCalled(layout, false, None)
    then Some(Guard(authReady, user))
    else None
  }

  /** As written, the render that would show the dashboard to a signed-in user calls more hooks
      than the mount did, so React throws instead; the sign-in prompt and the blank render work. */
  lemma SignedInRenderThrows(authReady: bool, user: Option<UserId>)
    ensures Rerender(BelowReturns, authReady, user).None? <==> authReady && user.Some?
  {
  }

  /** With the state hooks above the early returns every render calls the same hooks, and each
      render shows what the guard selects. */
  lemma HoistedRenderShowsGuard(authReady: bool, user: Option<UserId>)
    ensures Rerender(Hoisted, authReady, user) == Some(Guard(authReady, user))
    ensures authReady && user.Some? ==> Rerender(Hoisted, authReady, user) == Some(Main)
  {
  }
}

=== FILE: iso_dates.dfy ===
/** `toISOString().slice(0, 10)`: the `YYYY-MM-DD` text of a day, and the fact that comparing
    these texts as strings compares the days. */
module IsoDates {

  import opened Calendar

  function Digit(n: int): char
    requires 0 <= n < 10
  {
    ('0' as int + n) as char
  }

  function Pow10(w: nat): (p: nat)
    ensures p >= 1
  {
    if w == 0 then 1 else 10 * Pow10(w - 1)
  }

  /** `n` written with exactly `w` decimal digits, zero-padded on the left. */
  function Digits(n: nat, w: nat): (s: string)
    requires n < Pow10(w)
    ensures |s| == w
  {
    if w == 0 then "" else Digits(n / 10, w - 1) + [Digit(n % 10)]
  }

  /** JavaScript's `<` on strings: lexicographic order of the code units. */
  predicate LexLess(a: string, b: string) {
    if |a| == 0 then |b| > 0
    else if |b| == 0 then false
    else if a[0] != b[0] then a[0] < b[0]
    else LexLess(a[1..], b[1..])
  }

  lemma {:induction false} LexLessIrreflexive(a: string)
    ensures !LexLess(a, a)
  {
    if |a| > 0 {
      LexLessIrreflexive(a[1..]);
    }
  }

  /** Comparing two concatenations whose first parts have equal length. */
  lemma {:induction false} LexLessAppend(p: string, q: string, x: string, y: string)
    requires |p| == |q|
    ensures LexLess(p + x, q + y) == if p == q then LexLess(x, y) else LexLess(p, q)
  {
    if |p| > 0 {
      assert (p + x)[1..] == p[1..] + x;
      assert (q + y)[1..] == q[1..] + y;
      LexLessAppend(p[1..], q[1..], x, y);
      if p[0] == q[0] && p[1..] == q[1..] {
        assert p == q;
      }
    } else {
      assert p + x == x && q + y == y;
    }
  }

  /** Fixed-width decimal texts compare like the numbers they spell. */
  lemma {:induction false} DigitsOrder(a: nat, b: nat, w: nat)
    requires a < Pow10(w) && b < Pow10(w)
    ensures LexLess(Digits(a, w), Digits(b, w)) <==> a < b
    ensures Digits(a, w) == Digits(b, w) <==> a == b
  {
    if w > 0 {
      DigitsOrder(a / 10, b / 10, w - 1);
      LexLessAppend(Digits(a / 10, w - 1), Digits(b / 10, w - 1), [Digit(a % 10)], [Digit(b % 10)]);
      if Digits(a, w) == Digits(b, w) {
        assert Digits(a, w)[..w - 1] == Digits(a / 10, w - 1);
        assert Digits(b, w)[..w - 1] == Digits(b / 10, w - 1);
        assert Digits(a, w)[w - 1] == Digit(a % 10);
      }
    }
  }

  /** The days whose ISO text has a four-digit year. */
  predicate InIsoRange(d: Day) {
    0 <= ToCivil(d).year <= 9999
  }

  /** Chronological order of valid civil dates: year, then month, then day. */
  predicate CivilBefore(a: Civil, b: Civil) {
    a.year < b.year || (a.year == b.year && a.month < b.month)
    || (a.year == b.year && a.month == b.month && a.day < b.day)
  }

  function CivilText(c: Civil): (s: string)
    requires ValidCivil(c) && 0 <= c.year <= 9999
  {
    Digits(c.year, 4) + "-" + Digits(c.month + 1, 2) + "-" + Digits(c.day, 2)
  }

  /** A shared leading separator does not affect the comparison. */
  lemma DashPrefix(x: string, y: string)
    ensures LexLess("-" + x, "-" + y) == LexLess(x, y)
    ensures ("-" + x == "-" + y) <==> x == y
  {
    assert ("-" + x)[1..] == x && ("-" + y)[1..] == y;
  }

  /** Concatenations with equal-length heads are equal exactly when both parts are. */
  lemma AppendEq(p: string, q: string, u: string, v: string)
    requires |p| == |q|
    ensures p + u == q + v <==> p == q && u == v
  {
    if p + u == q + v {
      assert p == (p + u)[..|p|] && q == (q + v)[..|q|];
      assert u == (p + u)[|p|..] && v == (q + v)[|q|..];
    }
  }

  /** Two fixed-width fields after a separator compare field by field. */
  lemma FieldPair(p: string, q: string, x: string, y: string)
    requires |p| == |q|
    ensures LexLess(p + ("-" + x), q + ("-" + y))
            <==> LexLess(p, q) || (p == q && LexLess(x, y))
    ensures (p + ("-" + x) == q + ("-" + y)) <==> p == q && x == y
  {
    var u, v := "-" + x, "-" + y;
    LexLessAppend(p, q, u, v);
    DashPrefix(x, y);
    AppendEq(p, q, u, v);
    LexLessIrreflexive(p);
  }

  /** `-X-Y` texts with equal-width `X` compare field by field. */
  lemma DashFields(xa: string, ya: string, xb: string, yb: string)
    requires |xa| == |xb|
    ensures LexLess("-" + xa + "-" + ya, "-" + xb + "-" + yb)
            <==> LexLess(xa, xb) || (xa == xb && LexLess(ya, yb))
    ensures ("-" + xa + "-" + ya == "-" + xb + "-" + yb) <==> xa == xb && ya == yb
  {
    assert "-" + xa + "-" + ya == "-" + (xa + ("-" + ya));
    assert "-" + xb + "-" + yb == "-" + (xb + ("-" + yb));
    DashPrefix(xa + ("-" + ya), xb + ("-" + yb));
    FieldPair(xa, xb, ya, yb);
  }

  /** `-MM-DD` texts compare like (month, day) pairs. */
  lemma MonthDayTextOrder(ma: nat, da: nat, mb: nat, db: nat)
    requires ma < 100 && da < 100 && mb < 100 && db < 100
    ensures LexLess("-" + Digits(ma, 2) + "-" + Digits(da, 2), "-" + Digits(mb, 2) + "-" + Digits(db, 2))
            <==> ma < mb || (ma == mb && da < db)
    ensures ("-" + Digits(ma, 2) + "-" + Digits(da, 2) == "-" + Digits(mb, 2) + "-" + Digits(db, 2))
            <==> ma == mb && da == db
  {
    DigitsOrder(ma, mb, 2);
    DigitsOrder(da, db, 2);
    DashFields(Digits(ma, 2), Digits(da, 2), Digits(mb, 2), Digits(db, 2));
  }

  /** `Y-M-D` texts with equal-width `Y` and `M` compare field by field. */
  lemma ThreeFields(ya: string, ma: string, da: string, yb: string, mb: string, db: string)
    requires |ya| == |yb| && |ma| == |mb|
    ensures LexLess(ya + "-" + ma + "-" + da, yb + "-" + mb + "-" + db)
            <==> LexLess(ya, yb) || (ya == yb && LexLess("-" + ma + "-" + da, "-" + mb + "-" + db))
    ensures (ya + "-" + ma + "-" + da == yb + "-" + mb + "-" + db)
            <==> ya == yb && ("-" + ma + "-" + da == "-" + mb + "-" + db)
  {
    var ta, tb := "-" + ma + "-" + da, "-" + mb + "-" + db;
    Assoc4(ya, ma, da);
    Assoc4(yb, mb, db);
    LexLessAppend(ya, yb, ta, tb);
    AppendEq(ya, yb, ta, tb);
    LexLessIrreflexive(ya);
  }

  lemma Assoc4(y: string, m: string, d: string)
    ensures y + "-" + m + "-" + d == y + ("-" + m + "-" + d)
  {
  }

  /** Civil-date texts compare like the dates. */
  lemma CivilTextOrder(a: Civil, b: Civil)
    requires ValidCivil(a) && 0 <= a.year <= 9999
    requires ValidCivil(b) && 0 <= b.year <= 9999
    ensures LexLess(CivilText(a), CivilText(b)) <==> CivilBefore(a, b)
    ensures CivilText(a) == CivilText(b) <==> a == b
  {
    var ya, ma, da := Digits(a.year, 4), Digits(a.month + 1, 2), Digits(a.day, 2);
    var yb, mb, db := Digits(b.year, 4), Digits(b.month + 1, 2), Digits(b.day, 2);
    assert CivilText(a) == ya + "-" + ma + "-" + da;
    assert CivilText(b) == yb + "-" + mb + "-" + db;
    DigitsOrder(a.year, b.year, 4);
    MonthDayTextOrder(a.month + 1, a.day, b.month + 1, b.day);
    ThreeFields(ya, ma, da, yb, mb, db);
    assert (ya == yb <==> a.year == b.year);
    assert ("-" + ma + "-" + da == "-" + mb + "-" + db) <==> a.month == b.month && a.day == b.day;
  }

  /** `YYYY-MM-DD`, with the month numbered from 1. */
  function IsoString(d: Day): (s: string)
    requires InIsoRange(d)
    ensures |s| == 10 && s[4] == '-' && s[7] == '-'
  {
    CivilText(ToCivil(d))
  }

  /** ISO texts compare as strings exactly as the days compare, so `dayISO > todayISO` means a
      later day and `dayISO === todayISO` the same day. */
  lemma IsoOrder(a: Day, b: Day)
    requires InIsoRange(a) && InIsoRange(b)
    ensures LexLess(IsoString(a), IsoString(b)) <==> a < b
    ensures IsoString(a) == IsoString(b) <==> a == b
  {
    var ca, cb := ToCivil(a), ToCivil(b);
    CivilTextOrder(ca, cb);
    if CivilBefore(ca, cb) {
      ToDayMonotone(ca, cb);
    }
    if CivilBefore(cb, ca) {
      ToDayMonotone(cb, ca);
    }
  }
}

=== FILE: journal_archive.dfy ===
/** The journal archive: entries with some non-blank content, newest first, grouped by month. */
module JournalArchive {

  import opened Wrappers
  import opened Calendar
  import opened Seqs
  import opened Text
  import opened TodayJournal

  // ----- The blank filter -------------------------------------------------------------------

  /** `e.content.trim() !== ''`. */
  predicate HasContent(e: JournalEntry) {
    Trim(e.content) != ""
  }

  /** The entries the archive shows, in their original order. */
  function Included(values: seq<JournalEntry>): (r: seq<JournalEntry>)
    ensures forall e :: e in r <==> e in values && !AllSpace(e.content)
    ensures IsSubsequence(r, values)
  {
    FilterIsSubsequence(values, HasContent);
    assert forall e :: HasContent(e) <==> !AllSpace(e.content) by {
      forall e: JournalEntry ensures HasContent(e) <==> !AllSpace(e.content) {
        TrimEmptyIffBlank(e.content);
      }
    }
    Filter(values, HasContent)
  }

  // ----- Newest first -----------------------------------------------------------------------

  predicate NewestFirst(s: seq<JournalEntry>) {
    forall i, j :: 0 <= i < j < |s| ==> s[i].date >= s[j].date
  }

  /** Inserts `x` before the first entry that is not newer, so among equal dates the earlier
      element stays first, as the stable `sort` keeps it. */
  function InsertByDate(x: JournalEntry, s: seq<JournalEntry>): (r: seq<JournalEntry>)
    requires NewestFirst(s)
    ensures NewestFirst(r)
    ensures multiset(r) == multiset(s) + multiset{x}
    ensures |r| > 0 && (r[0] == x || (|s| > 0 && r[0] == s[0]))
  {
    if |s| == 0 then [x]
    else if s[0].date <= x.date then [x] + s
    else
      var rest := InsertByDate(x, s[1..]);
      assert s == [s[0]] + s[1..];
      assert rest[0].date <= s[0].date;
      [s[0]] + rest
  }

  /** The descending sort by date: an insertion sort. */
  function SortNewestFirst(s: seq<JournalEntry>): (r: seq<JournalEntry>)
    ensures NewestFirst(r)
    ensures multiset(r) == multiset(s) && |r| == |s|
  {
    if |s| == 0 then []
    else
      assert s == [s[0]] + s[1..];
      InsertByDate(s[0], SortNewestFirst(s[1..]))
  }

  /** Taking some of the entries of a newest-first list keeps it newest first. */
  lemma {:induction false} FilterKeepsNewestFirst(s: seq<JournalEntry>, p: JournalEntry -> bool)
    requires NewestFirst(s)
    ensures NewestFirst(Filter(s, p))
  {
    if |s| > 0 {
      FilterKeepsNewestFirst(s[1..], p);
      var rest := Filter(s[1..], p);
      assert forall e :: e in rest ==> e in s[1..];
    }
  }

  // ----- Grouping by month ------------------------------------------------------------------

  datatype MonthGroup = MonthGroup(month: YearMonth, entries: seq<JournalEntry>)

  /** The month an entry is filed under. */
  function MonthKey(e: JournalEntry): YearMonth {
    MonthOf(e.date)
  }

  /** The entries filed under `m` by `key`. */
  function InGroup(key: JournalEntry -> YearMonth, m: YearMonth): JournalEntry -> bool {
    e => key(e) == m
  }

  /** The index of the first group with key `k`, or `|groups|` when there is none. */
  function FirstWith(groups: seq<MonthGroup>, k: YearMonth): (f: nat)
    ensures f <= |groups|
    ensures forall j :: 0 <= j < f ==> groups[j].month != k
    ensures f < |groups| ==> groups[f].month == k
  {
    if |groups| == 0 then 0 else if groups[0].month == k then 0 else 1 + FirstWith(groups[1..], k)
  }

  /** The reducer step: append the entry to its group, opening a new group at the end for a key
      not seen yet. */
  function AddEntry(groups: seq<MonthGroup>, e: JournalEntry, k: YearMonth): (r: seq<MonthGroup>)
    ensures var f := FirstWith(groups, k);
            if f < |groups| then r == groups[f := MonthGroup(k, groups[f].entries + [e])]
            else r == groups + [MonthGroup(k, [e])]
  {
    if |groups| == 0 then [MonthGroup(k, [e])]
    else if groups[0].month == k then [groups[0].(entries := groups[0].entries + [e])] + groups[1..]
    else [groups[0]] + AddEntry(groups[1..], e, k)
  }

  /** The `reduce` over the sorted entries, filing each under `key`. */
  function GroupBy(s: seq<JournalEntry>, key: JournalEntry -> YearMonth): seq<MonthGroup> {
    if |s| == 0 then [] else AddEntry(GroupBy(s[..|s| - 1], key), s[|s| - 1], key(s[|s| - 1]))
  }

  /** What the groups promise: one group per key, each holding exactly the entries with its key
      in their order, and none empty. */
  predicate IsGrouping(groups: seq<MonthGroup>, s: seq<JournalEntry>, key: JournalEntry -> YearMonth) {
    && (forall i, j :: 0 <= i < j < |groups| ==> groups[i].month != groups[j].month)
    && (forall i :: 0 <= i < |groups| ==> groups[i].entries == Filter(s, InGroup(key, groups[i].month)))
    && (forall i :: 0 <= i < |groups| ==> |groups[i].entries| > 0)
    && Covers(groups, s, key)
  }

  /** A group after the step holds exactly the entries with its key. */
  lemma AddEntryFilters(groups: seq<MonthGroup>, s: seq<JournalEntry>, e: JournalEntry, key: JournalEntry -> YearMonth, i: nat)
    requires IsGrouping(groups, s, key)
    requires i < |AddEntry(groups, e, key(e))|
    ensures var r := AddEntry(groups, e, key(e));
            r[i].entries == Filter(s + [e], InGroup(key, r[i].month))
  {
    var r := AddEntry(groups, e, key(e));
    var f := FirstWith(groups, key(e));
    var p := InGroup(key, r[i].month);
    FilterAppend(s, [e], p);
    assert Filter([e], p) == (if p(e) then [e] else []) by {
      assert [e][1..] == [];
    }
    if i == |groups| {
      forall x | x in s ensures !p(x) {
        var n :| 0 <= n < |s| && s[n] == x;
      }
      FilterNone(s, p);
    } else if i != f && f < |groups| {
      assert groups[i].month != groups[f].month;
    }
  }

  /** Every entry of `s` has a group. */
  predicate Covers(groups: seq<MonthGroup>, s: seq<JournalEntry>, key: JournalEntry -> YearMonth) {
    forall n :: 0 <= n < |s| ==> exists i :: 0 <= i < |groups| && groups[i].month == key(s[n])
  }

  /** The step keeps every existing key and has a group for the new entry's key. */
  lemma AddEntryMonths(groups: seq<MonthGroup>, e: JournalEntry, k: YearMonth)
    ensures var r := AddEntry(groups, e, k);
            && |groups| <= |r|
            && (forall i :: 0 <= i < |groups| ==> r[i].month == groups[i].month)
            && (exists i :: 0 <= i < |r| && r[i].month == k)
  {
    var f := FirstWith(groups, k);
    var r := AddEntry(groups, e, k);
    if f < |groups| {
      assert r[f].month == k;
    } else {
      assert r[|groups|].month == k;
    }
  }

  /** Every entry, old or new, has a group after the step. */
  lemma AddEntryCovers(groups: seq<MonthGroup>, s: seq<JournalEntry>, e: JournalEntry, key: JournalEntry -> YearMonth)
    requires Covers(groups, s, key)
    ensures Covers(AddEntry(groups, e, key(e)), s + [e], key)
  {
    var r := AddEntry(groups, e, key(e));
    var s' := s + [e];
    AddEntryMonths(groups, e, key(e));
    forall n | 0 <= n < |s'|
      ensures exists i :: 0 <= i < |r| && r[i].month == key(s'[n])
    {
      if n < |s| {
        assert s'[n] == s[n];
        var i :| 0 <= i < |groups| && groups[i].month == key(s[n]);
        assert r[i].month == key(s'[n]);
      } else {
        assert s'[n] == e;
      }
    }
  }

  /** The step keeps the months distinct and every group non-empty. */
  lemma AddEntryShape(groups: seq<MonthGroup>, e: JournalEntry, k: YearMonth)
    requires forall i, j :: 0 <= i < j < |groups| ==> groups[i].month != groups[j].month
    requires forall i :: 0 <= i < |groups| ==> |groups[i].entries| > 0
    ensures var r := AddEntry(groups, e, k);
            && (forall i, j :: 0 <= i < j < |r| ==> r[i].month != r[j].month)
            && (forall i :: 0 <= i < |r| ==> |r[i].entries| > 0)
  {
  }

  lemma AddEntryKeepsGrouping(groups: seq<MonthGroup>, s: seq<JournalEntry>, e: JournalEntry, key: JournalEntry -> YearMonth)
    requires IsGrouping(groups, s, key)
    ensures IsGrouping(AddEntry(groups, e, key(e)), s + [e], key)
  {
    var r := AddEntry(groups, e, key(e));
    AddEntryShape(groups, e, key(e));
    forall i | 0 <= i < |r|
      ensures r[i].entries == Filter(s + [e], InGroup(key, r[i].month))
    {
      AddEntryFilters(groups, s, e, key, i);
    }
    AddEntryCovers(groups, s, e, key);
  }

  lemma {:induction false} GroupByIsGrouping(s: seq<JournalEntry>, key: JournalEntry -> YearMonth)
    ensures IsGrouping(GroupBy(s, key), s, key)
  {
    if |s| > 0 {
      var init, e := s[..|s| - 1], s[|s| - 1];
      assert init + [e] == s;
      GroupByIsGrouping(init, key);
      AddEntryKeepsGrouping(GroupBy(init, key), init, e, key);
    }
  }

  function TotalSize(groups: seq<MonthGroup>): nat {
    if |groups| == 0 then 0 else |groups[0].entries| + TotalSize(groups[1..])
  }

  lemma {:induction false} AddEntrySize(groups: seq<MonthGroup>, e: JournalEntry, k: YearMonth)
    ensures TotalSize(AddEntry(groups, e, k)) == TotalSize(groups) + 1
  {
    if |groups| > 0 && groups[0].month != k {
      AddEntrySize(groups[1..], e, k);
      assert AddEntry(groups, e, k) == [groups[0]] + AddEntry(groups[1..], e, k);
      assert (AddEntry(groups, e, k))[1..] == AddEntry(groups[1..], e, k);
    } else if |groups| > 0 {
      assert AddEntry(groups, e, k)[1..] == groups[1..];
    }
  }

  lemma {:induction false} GroupSizesSum(s: seq<JournalEntry>, key: JournalEntry -> YearMonth)
    ensures TotalSize(GroupBy(s, key)) == |s|
  {
    if |s| > 0 {
      GroupSizesSum(s[..|s| - 1], key);
      AddEntrySize(GroupBy(s[..|s| - 1], key), s[|s| - 1], key(s[|s| - 1]));
    }
  }

  // ----- The archive view -------------------------------------------------------------------

  datatype Archive = Archive(groups: seq<MonthGroup>, totalEntries: nat)

  /** The archive of the journal map's values: the header count and the month groups. */
  function BuildArchive(values: seq<JournalEntry>): (a: Archive)
    ensures a.totalEntries == TotalSize(a.groups)
    ensures IsGrouping(a.groups, SortNewestFirst(Included(values)), MonthKey)
    ensures forall i :: 0 <= i < |a.groups| ==> NewestFirst(a.groups[i].entries)
    ensures forall e :: e in multiset(SortNewestFirst(Included(values))) <==> e in values && !AllSpace(e.content)
  {
    var shown := SortNewestFirst(Included(values));
    var groups := GroupBy(shown, MonthKey);
    GroupByIsGrouping(shown, MonthKey);
    GroupSizesSum(shown, MonthKey);
    forall i | 0 <= i < |groups| ensures NewestFirst(groups[i].entries) {
      FilterKeepsNewestFirst(shown, InGroup(MonthKey, groups[i].month));
    }
    Archive(groups, |Included(values)|)
  }

  // ----- Expanding an entry -----------------------------------------------------------------

  /** A click on the entry dated `date`: collapses it if it is the expanded one, otherwise
      expands it instead of any other. */
  function ClickEntry(expanded: Option<Day>, date: Day): (r: Option<Day>)
    ensures r.None? <==> expanded == Some(date)
    ensures r.Some? ==> r.value == date
  {
    if expanded == Some(date) then None else Some(date)
  }

  predicate DistinctDates(s: seq<JournalEntry>) {
    forall i, j :: 0 <= i < j < |s| ==> s[i].date != s[j].date
  }

  /** Among entries with distinct dates, at most one is expanded whatever the clicks were. */
  lemma AtMostOneExpanded(s: seq<JournalEntry>, expanded: Option<Day>)
    requires DistinctDates(s)
    ensures forall i, j :: 0 <= i < |s| && 0 <= j < |s| && expanded == Some(s[i].date) && expanded == Some(s[j].date) ==> i == j
  {
  }

  /** Two clicks on the same entry from the collapsed state leave everything collapsed. */
  lemma ClickTwiceCollapses(date: Day)
    ensures ClickEntry(ClickEntry(None, date), date) == None
  {
  }
}

=== FILE: monthly_tracker.dfy ===
/** The month view: a grid of weeks, per-month statistics, month navigation and the colour of
    each day cell. */
module MonthlyTracker {

  import opened Wrappers
  import opened Calendar
  import opened Rounding
  import opened Seqs
  import opened TaskGrid

  // ----- Navigation -------------------------------------------------------------------------

  /** The previous-month button: the 1st of the month before, January rolling back to December. */
  function GoToPreviousMonth(view: YearMonth): (r: YearMonth)
    ensures LastDay(r) + 1 == FirstDay(view)
    ensures view.month == 0 ==> r.year == view.year - 1 && r.month == 11
    ensures view.month > 0 ==> r.year == view.year && r.month == view.month - 1
  {
    NextPrevInverse(view);
    FirstOfNextMonth(PrevMonth(view));
    PrevMonth(view)
  }

  /** The next-month button: the 1st of the month after, December rolling over to January. */
  function GoToNextMonth(view: YearMonth): (r: YearMonth)
    ensures FirstDay(r) == LastDay(view) + 1
    ensures view.month == 11 ==> r.year == view.year + 1 && r.month == 0
    ensures view.month < 11 ==> r.year == view.year && r.month == view.month + 1
  {
    FirstOfNextMonth(view);
    NextMonth(view)
  }

  /** The current-month button: the month holding today. */
  function GoToCurrentMonth(today: Day): (r: YearMonth)
    ensures FirstDay(r) <= today <= LastDay(r)
  {
    MonthOfContains(today, MonthOf(today));
    MonthOf(today)
  }

  /** Next undoes previous and previous undoes next. */
  lemma NavigationRoundTrip(view: YearMonth)
    ensures GoToNextMonth(GoToPreviousMonth(view)) == view
    ensures GoToPreviousMonth(GoToNextMonth(view)) == view
  {
    NextPrevInverse(view);
  }

  // ----- Day cells --------------------------------------------------------------------------

  /** `completionByDate?.[key] === true`. */
  predicate DoneUnder(t: Task, key: DateKey) {
    key in t.completionByDate && t.completionByDate[key] == true
  }

  /** The number of tasks marked done under `key`. */
  function CountDone(tasks: seq<Task>, key: DateKey): (n: nat)
    ensures n <= |tasks|
  {
    if |tasks| == 0 then 0
    else CountDone(tasks[..|tasks| - 1], key) + (if DoneUnder(tasks[|tasks| - 1], key) then 1 else 0)
  }

  /** The count is the length of `tasks.filter(t => t.completionByDate?.[key] === true)`. */
  lemma {:induction false} CountDoneIsFilter(tasks: seq<Task>, key: DateKey)
    ensures CountDone(tasks, key) == |Filter(tasks, (t: Task) => DoneUnder(t, key))|
  {
    if |tasks| > 0 {
      var init := tasks[..|tasks| - 1];
      CountDoneIsFilter(init, key);
      assert tasks == init + [tasks[|tasks| - 1]];
      FilterAppend(init, [tasks[|tasks| - 1]], (t: Task) => DoneUnder(t, key));
    }
  }

  /** No task counts as done under `key` exactly when none has `true` stored there. */
  lemma {:induction false} CountDoneZero(tasks: seq<Task>, key: DateKey)
    ensures CountDone(tasks, key) == 0 <==> forall i :: 0 <= i < |tasks| ==> !DoneUnder(tasks[i], key)
  {
    if |tasks| > 0 {
      var init := tasks[..|tasks| - 1];
      CountDoneZero(init, key);
      assert forall i :: 0 <= i < |init| ==> init[i] == tasks[i];
    }
  }

  /** `(done / total) * 100`, or 0 with no tasks. */
  function Rate(done: nat, total: nat): (r: real)
    requires done <= total
    ensures total == 0 ==> r == 0.0
    ensures total > 0 ==> r * total as real == 100.0 * done as real
    ensures 0.0 <= r <= 100.0
  {
    if total > 0 then RateOf(done, total) else 0.0
  }

  function RateOf(done: nat, total: nat): (r: real)
    requires 0 <= done <= total && total > 0
    ensures 0.0 <= r <= 100.0
    ensures r * total as real == 100.0 * done as real
  {
    (done as real / total as real) * 100.0
  }

  datatype DayCell = DayCell(day: nat, date: Day, tasksCompleted: nat, totalTasks: nat,
                             completionRate: real, isToday: bool, isPast: bool)

  /** How a cell spells the date it looks up. The code as written uses `toLocaleDateString()`,
      while every stored key is an ISO date. */
  datatype KeyFormat = Locale | Iso

  function CellKey(fmt: KeyFormat, d: Day): (key: DateKey)
    ensures key.day == d
  {
    match fmt
    case Locale => LocaleKey(d)
    case Iso => IsoKey(d)
  }

  /** The cell of day number `dayNum` of the month `ym`. */
  function MakeCell(ym: YearMonth, dayNum: nat, tasks: seq<Task>, today: Day, fmt: KeyFormat): (c: DayCell)
    requires 1 <= dayNum <= MonthLength(ym)
    ensures c.day == dayNum && c.date - FirstDay(ym) + 1 == dayNum
    ensures c.tasksCompleted == CountDone(tasks, CellKey(fmt, c.date))
    ensures c.tasksCompleted <= c.totalTasks == |tasks|
    ensures |tasks| > 0 ==> c.completionRate * |tasks| as real == 100.0 * c.tasksCompleted as real
    ensures 0.0 <= c.completionRate <= 100.0 && (|tasks| == 0 ==> c.completionRate == 0.0)
    ensures c.isToday <==> c.date == today
    ensures c.isPast <==> c.date < today
  {
    var date := FirstDay(ym) + dayNum - 1;
    var done := CountDone(tasks, CellKey(fmt, date));
    DayCell(dayNum, date, done, |tasks|, Rate(done, |tasks|), date == today, date < today)
  }

  // ----- The grid ---------------------------------------------------------------------------

  /** The number of blank cells before the 1st: its weekday, Sunday first. */
  function Lead(ym: YearMonth): (n: nat)
    ensures n < 7
  {
    Weekday(FirstDay(ym))
  }

  /** The number of weeks the grid needs: up to and including the week of the last day. */
  function WeekCount(ym: YearMonth): (w: nat)
    ensures 4 <= w <= 6
    ensures 7 * (w - 1) < Lead(ym) + MonthLength(ym) <= 7 * w
  {
    (Lead(ym) + MonthLength(ym) + 6) / 7
  }

  /** The cell at flat position `p` (week * 7 + weekday) of the grid. */
  function CellAt(ym: YearMonth, p: int, tasks: seq<Task>, today: Day, fmt: KeyFormat): Option<DayCell> {
    if Lead(ym) <= p < Lead(ym) + MonthLength(ym)
    then Some(MakeCell(ym, p - Lead(ym) + 1, tasks, today, fmt))
    else None
  }

  /** What the grid promises: rows of seven, blanks outside the month, and day `j` of the month
      at flat position `Lead + j - 1`. */
  predicate IsMonthGrid(cal: seq<seq<Option<DayCell>>>, ym: YearMonth, tasks: seq<Task>, today: Day, fmt: KeyFormat) {
    && |cal| == WeekCount(ym)
    && (forall w :: 0 <= w < |cal| ==> |cal[w]| == 7)
    && (forall w, k :: 0 <= w < |cal| && 0 <= k < 7 && k < |cal[w]| ==>
          (cal[w][k].Some? <==> Lead(ym) <= 7 * w + k < Lead(ym) + MonthLength(ym)))
    && (forall w, k :: 0 <= w < |cal| && 0 <= k < 7 && k < |cal[w]| && cal[w][k].Some? ==>
          cal[w][k].value == MakeCell(ym, 7 * w + k - Lead(ym) + 1, tasks, today, fmt))
  }

  /** The day counter on reaching flat position `p`: one more than the day cells before it. */
  function CounterAt(ym: YearMonth, p: int): int {
    if p <= Lead(ym) then 1
    else if p - Lead(ym) >= MonthLength(ym) then MonthLength(ym) + 1
    else p - Lead(ym) + 1
  }

  /** One step of the inner loop at flat position `p = 7 * week + day`: the blank test of the
      code picks out exactly the positions outside the month, and the counter moves on only
      past a day cell. */
  lemma CounterStep(ym: YearMonth, week: nat, day: nat)
    requires day < 7
    ensures var p := 7 * week + day;
            var blank := (week == 0 && day < Lead(ym)) || CounterAt(ym, p) > MonthLength(ym);
            && (blank <==> !(Lead(ym) <= p < Lead(ym) + MonthLength(ym)))
            && (!blank ==> CounterAt(ym, p) == p - Lead(ym) + 1 && CounterAt(ym, p + 1) == CounterAt(ym, p) + 1)
            && (blank ==> CounterAt(ym, p + 1) == CounterAt(ym, p))
  {
  }

  /** While the counter has not passed the month, the position has not passed the last day. */
  lemma CounterBound(ym: YearMonth, p: int)
    requires CounterAt(ym, p) <= MonthLength(ym)
    ensures p < Lead(ym) + MonthLength(ym)
  {
  }

  /** `generateMonthCalendar`: up to six weeks of seven cells, stopping after the week in which
      the day counter passes the end of the month. */
  method GenerateMonthCalendar(ym: YearMonth, tasks: seq<Task>, today: Day, fmt: KeyFormat)
    returns (calendar: seq<seq<Option<DayCell>>>)
    ensures IsMonthGrid(calendar, ym, tasks, today, fmt)
    ensures 4 <= |calendar| <= 6
  {
    var daysInMonth := MonthLength(ym);
    var startingDayOfWeek := Lead(ym);
    calendar := [];
    var dayCounter := 1;
    var week := 0;
    while week < 6
      invariant 0 <= week < 6 && |calendar| == week
      invariant dayCounter == CounterAt(ym, 7 * week) <= daysInMonth
      invariant 7 * week < startingDayOfWeek + daysInMonth
      invariant forall w :: 0 <= w < week ==> |calendar[w]| == 7
      invariant forall w, k :: 0 <= w < week && 0 <= k < 7 ==> calendar[w][k] == CellAt(ym, 7 * w + k, tasks, today, fmt)
      decreases 6 - week
    {
      var weekDays := [];
      var day := 0;
      while day < 7
        invariant 0 <= day <= 7 && |weekDays| == day
        invariant dayCounter == CounterAt(ym, 7 * week + day)
        invariant forall k :: 0 <= k < day ==> weekDays[k] == CellAt(ym, 7 * week + k, tasks, today, fmt)
      {
        CounterStep(ym, week, day);
        if (week == 0 && day < startingDayOfWeek) || dayCounter > daysInMonth {
          weekDays := weekDays + [None];
        } else {
          weekDays := weekDays + [Some(MakeCell(ym, dayCounter, tasks, today, fmt))];
          dayCounter := dayCounter + 1;
        }
        day := day + 1;
      }
      calendar := calendar + [weekDays];
      if dayCounter > daysInMonth {
        GridDone(calendar, ym, tasks, today, fmt);
        return;
      }
      CounterBound(ym, 7 * (week + 1));
      week := week + 1;
    }
  }

  /** Rows equal to `CellAt`, ending with the week of the last day, form the month grid. */
  lemma GridDone(cal: seq<seq<Option<DayCell>>>, ym: YearMonth, tasks: seq<Task>, today: Day, fmt: KeyFormat)
    requires |cal| >= 1 && 7 * (|cal| - 1) < Lead(ym) + MonthLength(ym) <= 7 * |cal|
    requires forall w :: 0 <= w < |cal| ==> |cal[w]| == 7
    requires forall w, k :: 0 <= w < |cal| && 0 <= k < 7 ==> cal[w][k] == CellAt(ym, 7 * w + k, tasks, today, fmt)
    ensures IsMonthGrid(cal, ym, tasks, today, fmt)
    ensures 4 <= |cal| <= 6
  {
  }

  /** Every day of the month appears exactly once, at the position fixed by its weekday. */
  lemma EachDayOnce(cal: seq<seq<Option<DayCell>>>, ym: YearMonth, tasks: seq<Task>, today: Day, fmt: KeyFormat, j: nat)
    requires IsMonthGrid(cal, ym, tasks, today, fmt)
    requires 1 <= j <= MonthLength(ym)
    ensures var p := Lead(ym) + j - 1;
            p / 7 < |cal| && cal[p / 7][p % 7].Some? && cal[p / 7][p % 7].value.day == j
    ensures forall w, k :: 0 <= w < |cal| && 0 <= k < 7 && cal[w][k].Some? && cal[w][k].value.day == j
              ==> 7 * w + k == Lead(ym) + j - 1
  {
    var p := Lead(ym) + j - 1;
    assert 7 * (p / 7) + p % 7 == p;
  }

  /** The first week opens with exactly `Lead` blanks, followed by the 1st. */
  lemma FirstWeekLead(cal: seq<seq<Option<DayCell>>>, ym: YearMonth, tasks: seq<Task>, today: Day, fmt: KeyFormat)
    requires IsMonthGrid(cal, ym, tasks, today, fmt)
    ensures forall k :: 0 <= k < Lead(ym) ==> cal[0][k].None?
    ensures cal[0][Lead(ym)].Some? && cal[0][Lead(ym)].value.day == 1
  {
  }

  // ----- Monthly statistics -----------------------------------------------------------------

  /** Tasks done on day `d`, under its ISO key. */
  function DoneOn(tasks: seq<Task>, d: Day): nat {
    CountDone(tasks, IsoKey(d))
  }

  /** Completions summed over the days `first..last`. */
  function CompletionsBetween(tasks: seq<Task>, first: Day, last: Day): nat
    decreases last - first + 1
  {
    if last < first then 0 else CompletionsBetween(tasks, first, last - 1) + DoneOn(tasks, last)
  }

  /** Days among `first..last` with at least one completion. */
  function ActiveBetween(tasks: seq<Task>, first: Day, last: Day): nat
    decreases last - first + 1
  {
    if last < first then 0
    else ActiveBetween(tasks, first, last - 1) + (if DoneOn(tasks, last) > 0 then 1 else 0)
  }

  lemma {:induction false} ActiveBounded(tasks: seq<Task>, first: Day, last: Day)
    requires first <= last + 1
    ensures ActiveBetween(tasks, first, last) <= last - first + 1
    decreases last - first + 1
  {
    if last >= first {
      ActiveBounded(tasks, first, last - 1);
    }
  }

  lemma {:induction false} CompletionsBounded(tasks: seq<Task>, first: Day, k: nat)
    ensures CompletionsBetween(tasks, first, first + k - 1) <= k * |tasks|
  {
    if k > 0 {
      CompletionsBounded(tasks, first, k - 1);
      var c := CompletionsBetween(tasks, first, first + k - 2);
      assert CompletionsBetween(tasks, first, first + k - 1) == c + DoneOn(tasks, first + k - 1);
      MulSucc(k - 1, |tasks|);
    }
  }

  lemma MulSucc(n: int, t: int)
    ensures (n + 1) * t == n * t + t
  {
  }

  datatype MonthStats = MonthStats(totalDays: nat, activeDays: nat, avgCompletionRate: nat)

  /** The last day the statistics look at: today in the current month, otherwise the month's
      last day, so a future month is counted in full. */
  function StatsEnd(ym: YearMonth, today: Day): (end: Day)
    ensures FirstDay(ym) <= end <= LastDay(ym)
  {
    MonthOfContains(today, ym);
    if MonthOf(today) == ym then today else LastDay(ym)
  }

  /** The number of days the statistics cover: today's day of the month in the current month,
      the whole month otherwise. */
  lemma StatsSpan(ym: YearMonth, today: Day)
    ensures StatsEnd(ym, today) - FirstDay(ym) + 1
            == if MonthOf(today) == ym then ToCivil(today).day else MonthLength(ym)
  {
  }

  /** The loop of `calculateMonthlyStats` over the days `first..last`. */
  method TallyDays(tasks: seq<Task>, first: Day, last: Day)
    returns (totalDays: nat, activeDays: nat, totalCompletions: nat, possibleCompletions: nat)
    requires first <= last + 1
    ensures totalDays == last - first + 1
    ensures activeDays == ActiveBetween(tasks, first, last)
    ensures totalCompletions == CompletionsBetween(tasks, first, last)
    ensures possibleCompletions == totalDays * |tasks|
  {
    totalDays, activeDays, totalCompletions, possibleCompletions := 0, 0, 0, 0;
    var d := first;
    while d <= last
      invariant first <= d <= last + 1
      invariant totalDays == d - first
      invariant activeDays == ActiveBetween(tasks, first, d - 1)
      invariant totalCompletions == CompletionsBetween(tasks, first, d - 1)
      invariant possibleCompletions == totalDays * |tasks|
      decreases last - d
    {
      MulSucc(totalDays, |tasks|);
      totalDays := totalDays + 1;
      var dayCompletions := DoneOn(tasks, d);
      if dayCompletions > 0 {
        activeDays := activeDays + 1;
      }
      totalCompletions := totalCompletions + dayCompletions;
      possibleCompletions := possibleCompletions + |tasks|;
      d := d + 1;
    }
  }

  /** What the statistics over the days `first..last` are: the number of days, the days with at
      least one completion, and the rounded percentage of the possible completions (one per task
      per day) that happened. */
  predicate IsStatsOver(stats: MonthStats, tasks: seq<Task>, first: Day, last: Day) {
    && stats.totalDays == last - first + 1
    && stats.activeDays == ActiveBetween(tasks, first, last)
    && stats.avgCompletionRate == Percent(CompletionsBetween(tasks, first, last), stats.totalDays * |tasks|)
  }

  /** The loop of `calculateMonthlyStats` over `first..last`, with the bounds it guarantees. */
  method StatsOver(tasks: seq<Task>, first: Day, last: Day) returns (stats: MonthStats)
    requires first <= last
    ensures IsStatsOver(stats, tasks, first, last)
    ensures stats.activeDays <= stats.totalDays
    ensures stats.avgCompletionRate <= 100
  {
    var totalDays, activeDays, totalCompletions, possibleCompletions := TallyDays(tasks, first, last);
    ActiveBounded(tasks, first, last);
    CompletionsBounded(tasks, first, totalDays);
    PercentAtMost100(totalCompletions, possibleCompletions);
    stats := MonthStats(totalDays, activeDays, Percent(totalCompletions, possibleCompletions));
  }

  /** `calculateMonthlyStats`: the statistics from the 1st of the month to `StatsEnd`. */
  method CalculateMonthlyStats(ym: YearMonth, tasks: seq<Task>, today: Day) returns (stats: MonthStats)
    ensures IsStatsOver(stats, tasks, FirstDay(ym), StatsEnd(ym, today))
    ensures stats.activeDays <= stats.totalDays
    ensures stats.avgCompletionRate <= 100
  {
    stats := StatsOver(tasks, FirstDay(ym), StatsEnd(ym, today));
  }

  // ----- Colour buckets ---------------------------------------------------------------------

  datatype Shade = Transparent | TodayStyle | Green | Blue | Yellow | PastGrey | FutureGrey

  /** The cell style: blank cells are transparent, today is highlighted, a past day is coloured
      by its completion rate, and later days are grey. */
  function CellShade(cell: Option<DayCell>): (s: Shade)
    ensures cell.None? <==> s == Transparent
    ensures s == TodayStyle <==> cell.Some? && cell.value.isToday
    ensures s == FutureGrey <==> cell.Some? && !cell.value.isToday && !cell.value.isPast
    ensures s == Green <==> cell.Some? && !cell.value.isToday && cell.value.isPast && cell.value.completionRate >= 75.0
    ensures s == Blue <==> cell.Some? && !cell.value.isToday && cell.value.isPast && 50.0 <= cell.value.completionRate < 75.0
    ensures s == Yellow <==> cell.Some? && !cell.value.isToday && cell.value.isPast && 0.0 < cell.value.completionRate < 50.0
    ensures s == PastGrey <==> cell.Some? && !cell.value.isToday && cell.value.isPast && cell.value.completionRate <= 0.0
  {
    match cell
    case None => Transparent
    case Some(c) =>
      if c.isToday then TodayStyle
      else if c.isPast then
        (if c.completionRate >= 75.0 then Green
         else if c.completionRate >= 50.0 then Blue
         else if c.completionRate > 0.0 then Yellow
         else PastGrey)
      else FutureGrey
  }

  /** The legend's order of the past-day colours, from none done to most done. */
  function ShadeRank(s: Shade): int {
    match s
    case PastGrey => 0
    case Yellow => 1
    case Blue => 2
    case Green => 3
    case _ => -1
  }

  /** Among past days other than today, a higher completion rate never gets a lower colour. */
  lemma ShadeMonotone(a: DayCell, b: DayCell)
    requires a.isPast && !a.isToday && b.isPast && !b.isToday
    requires a.completionRate <= b.completionRate
    ensures 0 <= ShadeRank(CellShade(Some(a))) <= ShadeRank(CellShade(Some(b))) <= 3
  {
  }

  // ----- The key mismatch -------------------------------------------------------------------

  /** No task stores a locale-spelled key: every key is an ISO key, as the dashboard's mapping
      produces. */
  ghost predicate OnlyIsoKeys(tasks: seq<Task>) {
    forall i, d :: 0 <= i < |tasks| ==> LocaleKey(d) !in tasks[i].completionByDate
  }

  /** As written, a cell looks its day up under the locale spelling and so never finds the
      stored ISO entry: every cell shows zero completions and a zero rate. */
  lemma LocaleCellsShowNothing(ym: YearMonth, dayNum: nat, tasks: seq<Task>, today: Day)
    requires 1 <= dayNum <= MonthLength(ym)
    requires OnlyIsoKeys(tasks)
    ensures MakeCell(ym, dayNum, tasks, today, Locale).tasksCompleted == 0
    ensures MakeCell(ym, dayNum, tasks, today, Locale).completionRate == 0.0
  {
    var key := LocaleKey(FirstDay(ym) + dayNum - 1);
    assert forall i :: 0 <= i < |tasks| ==> key !in tasks[i].completionByDate;
    CountDoneZero(tasks, key);
  }

  /** With ISO keys, each cell counts the same completions as the statistics count for its day,
      so a cell and the monthly figures agree. */
  lemma IsoCellsMatchStats(ym: YearMonth, dayNum: nat, tasks: seq<Task>, today: Day)
    requires 1 <= dayNum <= MonthLength(ym)
    ensures MakeCell(ym, dayNum, tasks, today, Iso).tasksCompleted
            == DoneOn(tasks, FirstDay(ym) + dayNum - 1)
  {
  }

  /** A concrete instance: one task done on 2024-01-05 is shown under ISO keys and lost under
      locale keys. */
  lemma LocaleMismatchExample()
    ensures var ym := YearMonth(2024, 0);
            var t := Task("t1", "Read", map[IsoKey(FirstDay(ym) + 4) := true]);
            MakeCell(ym, 5, [t], FirstDay(ym) + 10, Iso).tasksCompleted == 1
            && MakeCell(ym, 5, [t], FirstDay(ym) + 10, Locale).tasksCompleted == 0
  {
    var ym := YearMonth(2024, 0);
    var key := IsoKey(FirstDay(ym) + 4);
    var t := Task("t1", "Read", map[key := true]);
    assert [t][..0] == [];
  }
}

=== FILE: progress_graph.dfy ===
/** The summaries the progress chart derives from its `DailyProgress` entries: the average
    completion, the y-axis range and ticks, the best day and the trend. */
module ProgressGraph {

  import opened Api
  import opened Rounding

  /** The sum of the `completion` percentages. */
  function SumCompletion(data: seq<DailyProgress>): nat {
    if |data| == 0 then 0 else SumCompletion(data[..|data| - 1]) + data[|data| - 1].completion
  }

  /** `averageCompletion`: the rounded mean of the percentages, 0 for no data. */
  function AverageCompletion(data: seq<DailyProgress>): (r: nat)
    ensures |data| == 0 ==> r == 0
    ensures |data| > 0 ==> 2 * |data| * r <= 2 * SumCompletion(data) + |data| < 2 * |data| * (r + 1)
  {
    if |data| > 0 then RoundDiv(SumCompletion(data), |data|) else 0
  }

  /** The sum of percentages that are each at most `bound` is at most `bound` per entry. */
  lemma {:induction false} SumCompletionBounded(data: seq<DailyProgress>, bound: nat)
    requires forall i :: 0 <= i < |data| ==> data[i].completion <= bound
    ensures SumCompletion(data) <= bound * |data|
  {
    if |data| > 0 {
      SumCompletionBounded(data[..|data| - 1], bound);
    }
  }

  /** The average of percentages that never exceed 100 does not exceed 100 either. */
  lemma AverageAtMost100(data: seq<DailyProgress>)
    requires forall i :: 0 <= i < |data| ==> data[i].completion <= 100
    ensures AverageCompletion(data) <= 100
  {
    if |data| > 0 {
      SumCompletionBounded(data, 100);
      PercentAtMost100(SumCompletion(data), 100 * |data|);
      RoundDivUnique(SumCompletion(data), |data|, AverageCompletion(data));
      RoundDivScale(SumCompletion(data), |data|);
    }
  }

  /** Scaling numerator and denominator alike does not change the rounded quotient. */
  lemma RoundDivScale(p: nat, q: nat)
    requires q > 0
    ensures RoundDiv(100 * p, 100 * q) == RoundDiv(p, q)
  {
    var r := RoundDiv(p, q);
    assert 2 * (100 * q) * r == 100 * (2 * q * r);
    assert 2 * (100 * q) * (r + 1) == 100 * (2 * q * (r + 1));
    RoundDivUnique(100 * p, 100 * q, r);
  }

  /** `Math.max(...data.map(d => d.tasksCompleted), 0)`. */
  function MaxTasksCompleted(data: seq<DailyProgress>): (m: nat)
    ensures forall i :: 0 <= i < |data| ==> data[i].tasksCompleted <= m
    ensures m == 0 || exists i :: 0 <= i < |data| && data[i].tasksCompleted == m
  {
    if |data| == 0 then 0
    else
      var rest := MaxTasksCompleted(data[1..]);
      assert forall i :: 1 <= i < |data| ==> data[i] == data[1..][i - 1];
      if data[0].tasksCompleted > rest then data[0].tasksCompleted else rest
  }

  /** `data[0].totalTasks`, or 10 when there is no data. */
  function TotalTasks(data: seq<DailyProgress>): nat {
    if |data| > 0 then data[0].totalTasks else 10
  }

  /** `yAxisMax = Math.max(totalTasks, maxTasksCompleted + 1)`: the least value that reaches the
      task count and stays strictly above every plotted count. */
  function YAxisMax(data: seq<DailyProgress>): (y: nat)
    ensures y >= TotalTasks(data) && y > MaxTasksCompleted(data) && y >= 1
    ensures y == TotalTasks(data) || y == MaxTasksCompleted(data) + 1
  {
    var m := MaxTasksCompleted(data) + 1;
    if TotalTasks(data) > m then TotalTasks(data) else m
  }

  /** The tick spacing: 1 up to 5, 2 up to 10, otherwise `Math.ceil(yAxisMax / 5)`. */
  function TickStep(yMax: nat): (step: nat)
    requires yMax >= 1
    ensures yMax <= 5 ==> step == 1
    ensures 5 < yMax <= 10 ==> step == 2
    ensures yMax > 10 ==> step >= 3 && 5 * (step - 1) < yMax <= 5 * step
  {
    if yMax <= 5 then 1 else if yMax <= 10 then 2 else (yMax + 4) / 5
  }

  predicate StrictlyIncreasing(s: seq<nat>) {
    forall i, j :: 0 <= i < j < |s| ==> s[i] < s[j]
  }

  /** `generateYTicks()`: the multiples of the step from 0 up to `yMax`, then `yMax` itself when it
      is not already one of them. */
  method GenerateYTicks(yMax: nat) returns (ticks: seq<nat>)
    requires yMax >= 1
    ensures |ticks| == yMax / TickStep(yMax) + (if yMax % TickStep(yMax) == 0 then 1 else 2)
    ensures |ticks| >= 2 && ticks[0] == 0 && ticks[|ticks| - 1] == yMax
    ensures StrictlyIncreasing(ticks)
    ensures forall i :: 0 <= i < |ticks| ==> ticks[i] <= yMax
    ensures forall k :: 0 <= k <= yMax / TickStep(yMax) ==> ticks[k] == k * TickStep(yMax)
  {
    var step := TickStep(yMax);
    var multiples: seq<nat> := [];
    var i := 0;
    while i <= yMax
      invariant i == |multiples| * step
      invariant |multiples| == 0 || (|multiples| - 1) * step <= yMax
      invariant forall k :: 0 <= k < |multiples| ==> multiples[k] == k * step
      decreases yMax + step - i
    {
      assert (|multiples| + 1) * step == i + step;
      multiples := multiples + [i];
      i := i + step;
    }
    MultiplesUpTo(multiples, step, yMax);
    if yMax !in multiples {
      ticks := multiples + [yMax];
      assert forall k :: 0 <= k < |multiples| ==> ticks[k] == multiples[k];
    } else {
      MultipleInTicks(multiples, step, yMax);
      ticks := multiples;
    }
  }

  /** The multiples of `step` below a bound: increasing, bounded, as many as the quotient says. */
  lemma MultiplesUpTo(ticks: seq<nat>, step: nat, yMax: nat)
    requires step >= 1 && yMax >= 1 && |ticks| >= 1
    requires forall k :: 0 <= k < |ticks| ==> ticks[k] == k * step
    requires (|ticks| - 1) * step <= yMax < |ticks| * step
    ensures |ticks| == yMax / step + 1
    ensures yMax % step == 0 <==> ticks[|ticks| - 1] == yMax
    ensures ticks[0] == 0
    ensures StrictlyIncreasing(ticks)
    ensures forall k :: 0 <= k < |ticks| ==> ticks[k] <= yMax
  {
    var n := |ticks|;
    Arith.DivUnique(yMax, step, n - 1, yMax - (n - 1) * step);
    forall i, j | 0 <= i < j < n
      ensures ticks[i] < ticks[j]
    {
      Arith.MulMonotone(step, i + 1, j);
    }
    forall k | 0 <= k < n
      ensures ticks[k] <= yMax
    {
      Arith.MulMonotone(step, k, n - 1);
    }
  }

  /** `yMax` occurs among the multiples of `step` only when `step` divides it, as the last one. */
  lemma MultipleInTicks(ticks: seq<nat>, step: nat, yMax: nat)
    requires step >= 1 && |ticks| >= 1
    requires forall k :: 0 <= k < |ticks| ==> ticks[k] == k * step
    requires (|ticks| - 1) * step <= yMax < |ticks| * step
    requires yMax in ticks
    ensures yMax % step == 0 && ticks[|ticks| - 1] == yMax
  {
    var k :| 0 <= k < |ticks| && ticks[k] == yMax;
    Arith.DivUnique(yMax, step, k, 0);
    Arith.DivUnique(yMax, step, |ticks| - 1, yMax - (|ticks| - 1) * step);
  }

  /** The index of the entry the best-day `reduce` keeps, scanning from `best` onwards at `i`. */
  function BestFrom(data: seq<DailyProgress>, best: nat, i: nat): (r: nat)
    requires best < |data| && best < i <= |data|
    ensures best <= r < |data|
    decreases |data| - i
  {
    if i == |data| then best
    else BestFrom(data, if data[i].tasksCompleted > data[best].tasksCompleted then i else best, i + 1)
  }

  /** The best-day `reduce` keeps an entry with the largest count, and the earliest such entry,
      because a later entry replaces the kept one only when strictly larger. */
  lemma {:induction false} BestFromIsFirstMaximum(data: seq<DailyProgress>, best: nat, i: nat)
    requires best < |data| && best < i <= |data|
    requires forall j :: 0 <= j < i ==> data[j].tasksCompleted <= data[best].tasksCompleted
    requires forall j :: 0 <= j < best ==> data[j].tasksCompleted < data[best].tasksCompleted
    ensures var r := BestFrom(data, best, i);
      (forall j :: 0 <= j < |data| ==> data[j].tasksCompleted <= data[r].tasksCompleted)
      && (forall j :: 0 <= j < r ==> data[j].tasksCompleted < data[r].tasksCompleted)
    decreases |data| - i
  {
    if i < |data| {
      var next := if data[i].tasksCompleted > data[best].tasksCompleted then i else best;
      BestFromIsFirstMaximum(data, next, i + 1);
    }
  }

  /** The best-day label: the `day` of the first entry with the most completed tasks, or "N/A". */
  function BestDay(data: seq<DailyProgress>): (name: string)
    ensures |data| == 0 ==> name == "N/A"
    ensures |data| > 0 ==> exists k :: (0 <= k < |data| && name == data[k].day
      && (forall j :: 0 <= j < |data| ==> data[j].tasksCompleted <= data[k].tasksCompleted)
      && (forall j :: 0 <= j < k ==> data[j].tasksCompleted < data[k].tasksCompleted))
  {
    if |data| == 0 then "N/A"
    else
      var k := if |data| == 1 then 0 else BestFrom(data, 0, 1);
      BestFromIsFirstMaximum(data, 0, 1);
      data[k].day
  }

  datatype Trend = Improving | Declining | Stable

  /** The trend compares the last entry's count with the first one's. */
  function TrendOf(data: seq<DailyProgress>): (t: Trend)
    ensures t == Improving <==> |data| >= 2 && data[|data| - 1].tasksCompleted > data[0].tasksCompleted
    ensures t == Declining <==> |data| >= 2 && data[|data| - 1].tasksCompleted < data[0].tasksCompleted
  {
    if |data| >= 2 && data[|data| - 1].tasksCompleted > data[0].tasksCompleted then Improving
    else if |data| >= 2 && data[|data| - 1].tasksCompleted < data[0].tasksCompleted then Declining
    else Stable
  }

  function Reverse(data: seq<DailyProgress>): (r: seq<DailyProgress>)
    ensures |r| == |data|
    ensures forall i :: 0 <= i < |data| ==> r[i] == data[|data| - 1 - i]
  {
    if |data| == 0 then [] else Reverse(data[1..]) + [data[0]]
  }

  /** Read backwards in time, an improving series is declining and vice versa. */
  lemma TrendReversed(data: seq<DailyProgress>)
    ensures TrendOf(Reverse(data)) == match TrendOf(data)
      case Improving => Declining
      case Declining => Improving
      case Stable => Stable
  {
  }
}

=== FILE: rocket_game.dfy ===
/** The rocket mini-game's step rules: moving the rocket, spawning and advancing meteors,
    collisions, start and stop, the score and the high score, and the star field. Positions are
    percentages of the play area. */
module RocketGame {

  import opened Seqs

  datatype Meteor = Meteor(id: int, x: real, y: real, speed: real)

  datatype Star = Star(id: int, x: real, y: real, speed: real)

  datatype Game = Game(score: nat, isPlaying: bool, rocket: real, meteors: seq<Meteor>,
                       gameOver: bool, highScore: int, nextId: nat)

  const MinPos: real := 5.0
  const MaxPos: real := 95.0
  const Hitbox: real := 8.0
  const RocketLevel: real := 85.0
  const Bottom: real := 100.0

  /** The first load: nothing playing, the rocket centred, the stored best score (`saved` is 0
      when nothing is stored). */
  function Load(saved: int): (r: Game)
    ensures r.highScore == saved && r.score == 0 && !r.isPlaying && !r.gameOver && r.meteors == []
    ensures saved >= 0 ==> Inv(r)
  {
    Game(0, false, 50.0, [], false, saved, 0)
  }

  // ----- Moving the rocket ------------------------------------------------------------------

  function Max(a: real, b: real): real { if a >= b then a else b }
  function Min(a: real, b: real): real { if a <= b then a else b }

  /** `Math.max(5, Math.min(95, v))`. */
  function Clamp(v: real): (r: real)
    ensures MinPos <= r <= MaxPos
    ensures MinPos <= v <= MaxPos ==> r == v
    ensures v < MinPos ==> r == MinPos
    ensures v > MaxPos ==> r == MaxPos
  {
    Max(MinPos, Min(MaxPos, v))
  }

  datatype Control =
    | KeyLeft | KeyRight          // arrow keys, 5 points
    | ButtonLeft | ButtonRight    // on-screen buttons, 8 points
    | Touch(percentage: real)     // where the play area was touched

  /** A control's effect on the rocket: the step moves toward the edge and stops at it, and a
      touch jumps to the touched place, clamped. Arrow keys and touches are only listened to
      while playing; the buttons are only shown while playing. */
  function Move(g: Game, c: Control): (r: Game)
    ensures !g.isPlaying ==> r == g
    ensures r == g.(rocket := r.rocket)
    ensures g.isPlaying && MinPos <= g.rocket <= MaxPos ==> MinPos <= r.rocket <= MaxPos
    ensures g.isPlaying && c.Touch? ==> r.rocket == Clamp(c.percentage)
    ensures g.isPlaying && c.KeyLeft? ==> r.rocket == (if g.rocket - 5.0 >= MinPos then g.rocket - 5.0 else MinPos)
    ensures g.isPlaying && c.KeyRight? ==> r.rocket == (if g.rocket + 5.0 <= MaxPos then g.rocket + 5.0 else MaxPos)
    ensures g.isPlaying && c.ButtonLeft? ==> r.rocket == (if g.rocket - 8.0 >= MinPos then g.rocket - 8.0 else MinPos)
    ensures g.isPlaying && c.ButtonRight? ==> r.rocket == (if g.rocket + 8.0 <= MaxPos then g.rocket + 8.0 else MaxPos)
  {
    if !g.isPlaying then g
    else match c
      case KeyLeft => g.(rocket := Max(MinPos, g.rocket - 5.0))
      case KeyRight => g.(rocket := Min(MaxPos, g.rocket + 5.0))
      case ButtonLeft => g.(rocket := Max(MinPos, g.rocket - 8.0))
      case ButtonRight => g.(rocket := Min(MaxPos, g.rocket + 8.0))
      case Touch(p) => g.(rocket := Clamp(p))
  }

  /** A left move followed by a right move of the same size returns the rocket to where it was
      unless it hit the left edge. */
  lemma LeftRightReturns(g: Game)
    requires g.isPlaying && MinPos + 5.0 <= g.rocket <= MaxPos
    ensures Move(Move(g, KeyLeft), KeyRight) == g
  {
  }

  // ----- Start and stop ---------------------------------------------------------------------

  /** `startGame`: playing, no game over, score zero, the rocket centred, no meteors. */
  function StartGame(g: Game): (r: Game)
    ensures r.isPlaying && !r.gameOver && r.score == 0 && r.rocket == 50.0 && r.meteors == []
    ensures r.highScore == g.highScore && r.nextId == g.nextId
  {
    g.(isPlaying := true, gameOver := false, score := 0, rocket := 50.0, meteors := [])
  }

  /** `stopGame`: not playing and game over; the score and the field stay as they were. */
  function StopGame(g: Game): (r: Game)
    ensures !r.isPlaying && r.gameOver
    ensures r == g.(isPlaying := false, gameOver := true)
  {
    g.(isPlaying := false, gameOver := true)
  }

  /** Stopping twice is stopping once. */
  lemma StopIdempotent(g: Game)
    ensures StopGame(StopGame(g)) == StopGame(g)
  {
  }

  // ----- Meteors ----------------------------------------------------------------------------

  /** A meteor spawned from two random draws in [0, 1): x in [5, 95), speed in [1.5, 2.5),
      with the next id from the counter. */
  function Spawn(g: Game, r1: real, r2: real): (r: Game)
    requires 0.0 <= r1 < 1.0 && 0.0 <= r2 < 1.0
    ensures !g.isPlaying ==> r == g
    ensures g.isPlaying ==> |r.meteors| == |g.meteors| + 1
    ensures g.isPlaying ==> r == g.(meteors := g.meteors + [r.meteors[|g.meteors|]], nextId := g.nextId + 1)
    ensures g.isPlaying ==> var m := r.meteors[|g.meteors|];
              m.id == g.nextId && m.y == 0.0 && MinPos <= m.x < MaxPos && 1.5 <= m.speed < 2.5
  {
    if !g.isPlaying then g
    else g.(meteors := g.meteors + [Meteor(g.nextId, r1 * 90.0 + 5.0, 0.0, r2 * 1.0 + 1.5)], nextId := g.nextId + 1)
  }

  function Advance(m: Meteor): (r: Meteor)
    ensures r.id == m.id && r.x == m.x && r.speed == m.speed && r.y - m.y == m.speed
  {
    m.(y := m.y + m.speed)
  }

  predicate OnScreen(m: Meteor) { m.y < Bottom }

  /** One animation frame: every meteor falls by its speed, and those that reach the bottom
      leave. */
  function TickMeteors(ms: seq<Meteor>): (r: seq<Meteor>)
    ensures |r| <= |ms|
    ensures forall m :: m in r <==> (exists k :: 0 <= k < |ms| && m == Advance(ms[k])) && OnScreen(m)
  {
    var advanced := seq(|ms|, k requires 0 <= k < |ms| => Advance(ms[k]));
    forall m
      ensures m in advanced <==> exists k :: 0 <= k < |ms| && m == Advance(ms[k])
    {
      if m in advanced {
        var k :| 0 <= k < |advanced| && advanced[k] == m;
      }
      if exists k :: 0 <= k < |ms| && m == Advance(ms[k]) {
        var k :| 0 <= k < |ms| && m == Advance(ms[k]);
        assert advanced[k] == m;
      }
    }
    Filter(advanced, OnScreen)
  }

  /** Meteor ids in spawn order. */
  predicate IdsIncreasing(ms: seq<Meteor>) {
    forall i, j :: 0 <= i < j < |ms| ==> ms[i].id < ms[j].id
  }

  /** Dropping meteors keeps the rest in spawn order. */
  lemma {:induction false} FilterKeepsIdOrder(ms: seq<Meteor>, p: Meteor -> bool)
    requires IdsIncreasing(ms)
    ensures IdsIncreasing(Filter(ms, p))
  {
    if |ms| > 0 {
      FilterKeepsIdOrder(ms[1..], p);
      var rest := Filter(ms[1..], p);
      forall j | 0 <= j < |rest|
        ensures ms[0].id < rest[j].id
      {
        assert rest[j] in ms[1..];
      }
    }
  }

  // ----- Collision, score, high score -------------------------------------------------------

  /** A meteor at rocket level whose centre is within the hitbox of the rocket's. */
  predicate Hits(m: Meteor, rocket: real)
    ensures Hits(m, rocket) <==> m.y >= RocketLevel && rocket - Hitbox < m.x < rocket + Hitbox
  {
    m.y >= RocketLevel && (if m.x >= rocket then m.x - rocket else rocket - m.x) < Hitbox
  }

  /** The collision check: while playing, any hitting meteor stops the game. */
  function CheckCollision(g: Game): (r: Game)
    ensures r.isPlaying <==> g.isPlaying && !exists k :: 0 <= k < |g.meteors| && Hits(g.meteors[k], g.rocket)
    ensures r.gameOver <==> g.gameOver || (g.isPlaying && exists k :: 0 <= k < |g.meteors| && Hits(g.meteors[k], g.rocket))
    ensures r.(isPlaying := g.isPlaying, gameOver := g.gameOver) == g
  {
    if g.isPlaying && exists k :: 0 <= k < |g.meteors| && Hits(g.meteors[k], g.rocket) then StopGame(g) else g
  }

  /** The collision check's loop, meteor by meteor, finds a hit exactly when one exists. */
  method FindHit(ms: seq<Meteor>, rocket: real) returns (hit: bool)
    ensures hit <==> exists k :: 0 <= k < |ms| && Hits(ms[k], rocket)
  {
    hit := false;
    var i := 0;
    while i < |ms|
      invariant 0 <= i <= |ms|
      invariant hit <==> exists k :: 0 <= k < i && Hits(ms[k], rocket)
    {
      if Hits(ms[i], rocket) {
        hit := true;
      }
      i := i + 1;
    }
  }

  /** A meteor far from the rocket or above rocket level never ends the game. */
  lemma NoHitAway(m: Meteor, rocket: real)
    requires m.y < RocketLevel || m.x - rocket >= Hitbox || rocket - m.x >= Hitbox
    ensures !Hits(m, rocket)
  {
  }

  /** The score timer: one point per tick while playing. */
  function ScoreTick(g: Game): (r: Game)
    ensures g.isPlaying ==> r == g.(score := g.score + 1)
    ensures !g.isPlaying ==> r == g
  {
    if g.isPlaying then g.(score := g.score + 1) else g
  }

  /** The high-score effect: a score above the best becomes the best. */
  function SyncHighScore(g: Game): (r: Game)
    ensures r.highScore >= g.highScore && r.highScore >= g.score
    ensures r.highScore == g.highScore || r.highScore == g.score
    ensures r == g.(highScore := r.highScore)
  {
    if g.score > g.highScore then g.(highScore := g.score) else g
  }

  // ----- Stars ------------------------------------------------------------------------------

  /** A star tick: past the bottom it wraps to the top, otherwise it drifts down. */
  function StarTick(s: Star): (r: Star)
    ensures r.id == s.id && r.x == s.x && r.speed == s.speed
    ensures s.y >= Bottom ==> r.y == 0.0
    ensures s.y < Bottom ==> r.y == s.y + s.speed
  {
    s.(y := if s.y >= Bottom then 0.0 else s.y + s.speed)
  }

  /** Stars stay within the band [0, 100 + speed) for good. */
  lemma StarStaysInBand(s: Star)
    requires 0.0 < s.speed && 0.0 <= s.y < Bottom + s.speed
    ensures 0.0 <= StarTick(s).y < Bottom + s.speed
  {
  }

  // ----- The whole game ---------------------------------------------------------------------

  datatype Event =
    | Start | Stop | Control(c: Control)
    | SpawnMeteor(r1: real, r2: real) | FrameTick | ScoreTimer

  predicate ValidEvent(e: Event) {
    e.SpawnMeteor? ==> 0.0 <= e.r1 < 1.0 && 0.0 <= e.r2 < 1.0
  }

  /** One event, followed by the collision check and the high-score effect, which React runs
      after every render that changes their inputs. Start is only offered when not playing,
      and stop only while playing. */
  function Step(g: Game, e: Event): (r: Game)
    requires ValidEvent(e)
    ensures r.highScore >= g.highScore && r.highScore >= r.score
    ensures !g.isPlaying && !e.Start? ==> r == g.(highScore := r.highScore)
    ensures e.Stop? ==> !r.isPlaying
    ensures e.Start? && !g.isPlaying ==> r.isPlaying && !r.gameOver && r.score == 0 && r.meteors == []
  {
    var g1 := match e
      case Start => if g.isPlaying then g else StartGame(g)
      case Stop => if g.isPlaying then StopGame(g) else g
      case Control(c) => Move(g, c)
      case SpawnMeteor(r1, r2) => Spawn(g, r1, r2)
      case FrameTick => if g.isPlaying then g.(meteors := TickMeteors(g.meteors)) else g
      case ScoreTimer => ScoreTick(g);
    SyncHighScore(CheckCollision(g1))
  }

  /** What every reachable game satisfies: the rocket in bounds, meteors in spawn order with
      ids below the counter, never playing and over at once, and the best score at least the
      current one. */
  predicate Inv(g: Game) {
    && MinPos <= g.rocket <= MaxPos
    && IdsIncreasing(g.meteors)
    && (forall k :: 0 <= k < |g.meteors| ==> g.meteors[k].id < g.nextId)
    && !(g.isPlaying && g.gameOver)
    && g.highScore >= g.score
  }

  lemma LoadInv(saved: nat)
    ensures Inv(Load(saved))
  {
  }

  /** Every event keeps the invariant. */
  lemma StepKeepsInv(g: Game, e: Event)
    requires Inv(g) && ValidEvent(e)
    ensures Inv(Step(g, e))
  {
    if e.FrameTick? && g.isPlaying {
      var ms := g.meteors;
      var advanced := seq(|ms|, k requires 0 <= k < |ms| => Advance(ms[k]));
      assert IdsIncreasing(advanced);
      FilterKeepsIdOrder(advanced, OnScreen);
      assert TickMeteors(ms) == Filter(advanced, OnScreen);
      forall m | m in TickMeteors(ms)
        ensures m.id < g.nextId
      {
        var k :| 0 <= k < |ms| && m == Advance(ms[k]);
      }
    }
  }

  /** The best score never goes down. */
  lemma HighScoreMonotone(g: Game, e: Event)
    requires ValidEvent(e)
    ensures Step(g, e).highScore >= g.highScore
  {
  }
}

=== FILE: rounding.dfy ===
/** Integer models of the rounding done with `Math.round` on non-negative ratios. */
module Rounding {

  import opened Arith

  /** `Math.round(p / q)` for p >= 0 and q > 0: the integer nearest to p/q, halves rounded up. */
  function RoundDiv(p: int, q: int): (r: int)
    requires p >= 0 && q > 0
    ensures r >= 0
    // r - 1/2 <= p/q < r + 1/2, multiplied through by 2q
    ensures 2 * q * r <= 2 * p + q < 2 * q * (r + 1)
  {
    (2 * p + q) / (2 * q)
  }

  /** The rounding is determined by the bracket in RoundDiv's contract: no other integer fits it. */
  lemma RoundDivUnique(p: int, q: int, r: int)
    requires p >= 0 && q > 0
    requires 2 * q * r <= 2 * p + q < 2 * q * (r + 1)
    ensures r == RoundDiv(p, q)
  {
    var s := RoundDiv(p, q);
    CancelLess(2 * q, r, s + 1);
    CancelLess(2 * q, s, r + 1);
  }

  /** `totalTasks > 0 ? Math.round((tasksCompleted / totalTasks) * 100) : 0`. */
  function Percent(count: nat, total: nat): (r: nat)
    ensures total == 0 ==> r == 0
    ensures total > 0 ==> 2 * total * r <= 200 * count + total < 2 * total * (r + 1)
  {
    if total > 0 then RoundDiv(100 * count, total) else 0
  }

  /** A percentage of a count that does not exceed its total is at most 100. */
  lemma PercentAtMost100(count: nat, total: nat)
    requires count <= total
    ensures Percent(count, total) <= 100
  {
    if total > 0 {
      var r := Percent(count, total);
      assert 2 * total * r < 2 * total * 101;
      CancelLess(2 * total, r, 101);
    }
  }

  /** With up to 200 in the total, a count above the total is shown above 100. */
  lemma PercentAbove100(count: nat, total: nat)
    requires 0 < total <= 200 && count > total
    ensures Percent(count, total) > 100
  {
    var r := Percent(count, total);
    assert 2 * total * 100 < 2 * total * (r + 1);
    CancelLess(2 * total, 100, r + 1);
  }

  /** For a total over 200 the rounding hides one surplus count: 202 of 201 still shows 100. */
  lemma PercentHidesSurplus()
    ensures Percent(202, 201) == 100
  {
    RoundDivUnique(100 * 202, 201, 100);
  }

  /** Percentages never decrease as the count grows. */
  lemma PercentMonotone(a: nat, b: nat, total: nat)
    requires a <= b
    ensures Percent(a, total) <= Percent(b, total)
  {
    if total > 0 {
      var ra, rb := Percent(a, total), Percent(b, total);
      assert 2 * total * ra < 2 * total * (rb + 1);
      CancelLess(2 * total, ra, rb + 1);
    }
  }
}

=== FILE: seqs.dfy ===
/** Order-preserving filtering of sequences, the `Array.prototype.filter` used throughout the application. */
module Seqs {

  /** The elements of `s` that satisfy `p`, in their original order. */
  function Filter<T(!new)>(s: seq<T>, p: T -> bool): (r: seq<T>)
    ensures |r| <= |s|
    ensures forall x :: x in r <==> x in s && p(x)
    ensures forall i :: 0 <= i < |r| ==> p(r[i])
  {
    if |s| == 0 then [] else (if p(s[0]) then [s[0]] else []) + Filter(s[1..], p)
  }

  /** `a` can be obtained from `b` by deleting elements. */
  predicate IsSubsequence<T(==)>(a: seq<T>, b: seq<T>)
    decreases |b|
  {
    if |a| == 0 then true
    else if |b| == 0 then false
    else if a[0] == b[0] then IsSubsequence(a[1..], b[1..])
    else IsSubsequence(a, b[1..])
  }

  /** Filtering keeps the surviving elements in the order they had. */
  lemma {:induction false} FilterIsSubsequence<T(!new)>(s: seq<T>, p: T -> bool)
    ensures IsSubsequence(Filter(s, p), s)
  {
    if |s| > 0 {
      FilterIsSubsequence(s[1..], p);
      if !p(s[0]) {
        assert Filter(s, p) == Filter(s[1..], p);
      }
    }
  }

  /** Filtering distributes over concatenation. */
  lemma {:induction false} FilterAppend<T(!new)>(a: seq<T>, b: seq<T>, p: T -> bool)
    ensures Filter(a + b, p) == Filter(a, p) + Filter(b, p)
  {
    if |a| == 0 {
      assert a + b == b;
    } else {
      assert (a + b)[1..] == a[1..] + b;
      FilterAppend(a[1..], b, p);
    }
  }

  /** Filtering twice with the same test is filtering once. */
  lemma {:induction false} FilterIdempotent<T(!new)>(s: seq<T>, p: T -> bool)
    ensures Filter(Filter(s, p), p) == Filter(s, p)
  {
    if |s| > 0 {
      FilterIdempotent(s[1..], p);
      var rest := Filter(s[1..], p);
      if p(s[0]) {
        assert Filter(s, p) == [s[0]] + rest;
        FilterAppend([s[0]], rest, p);
        assert Filter([s[0]], p) == [s[0]];
      } else {
        assert Filter(s, p) == rest;
      }
    }
  }

  /** Nothing is dropped exactly when every element passes. */
  lemma {:induction false} FilterKeepsAll<T(!new)>(s: seq<T>, p: T -> bool)
    requires forall i :: 0 <= i < |s| ==> p(s[i])
    ensures Filter(s, p) == s
  {
    if |s| > 0 {
      FilterKeepsAll(s[1..], p);
      assert [s[0]] + s[1..] == s;
    }
  }

  /** Filtering by a weaker test first does not change the result of a stronger one. */
  lemma {:induction false} FilterNarrows<T(!new)>(s: seq<T>, weak: T -> bool, strong: T -> bool)
    requires forall x :: strong(x) ==> weak(x)
    ensures Filter(Filter(s, weak), strong) == Filter(s, strong)
  {
    if |s| > 0 {
      FilterNarrows(s[1..], weak, strong);
      var rest := Filter(s[1..], weak);
      if weak(s[0]) {
        assert Filter(s, weak) == [s[0]] + rest;
        FilterAppend([s[0]], rest, strong);
        assert Filter([s[0]], strong) == if strong(s[0]) then [s[0]] else [];
      } else {
        assert Filter(s, weak) == rest;
      }
    }
  }

  /** At most one element passes a test that at most one position satisfies. */
  lemma {:induction false} FilterAtMostOne<T(!new)>(s: seq<T>, p: T -> bool)
    requires forall i, j :: 0 <= i < |s| && 0 <= j < |s| && p(s[i]) && p(s[j]) ==> i == j
    ensures |Filter(s, p)| <= 1
  {
    if |s| > 0 {
      FilterAtMostOne(s[1..], p);
      if p(s[0]) {
        forall x | x in s[1..]
          ensures !p(x)
        {
          var j :| 0 <= j < |s[1..]| && s[1..][j] == x;
          assert s[j + 1] == x;
        }
        FilterNone(s[1..], p);
      }
    }
  }

  /** Nothing passes when no element satisfies the test. */
  lemma {:induction false} FilterNone<T(!new)>(s: seq<T>, p: T -> bool)
    requires forall x :: x in s ==> !p(x)
    ensures Filter(s, p) == []
  {
    if |s| > 0 {
      assert s[0] in s;
      assert forall x :: x in s[1..] ==> x in s;
      FilterNone(s[1..], p);
    }
  }

  /** Filtering keeps each passing element as often as it occurs, and no copy of the others. */
  lemma {:induction false} FilterCounts<T(!new)>(s: seq<T>, p: T -> bool, x: T)
    ensures multiset(Filter(s, p))[x] == if p(x) then multiset(s)[x] else 0
  {
    if |s| > 0 {
      FilterCounts(s[1..], p, x);
      assert s == [s[0]] + s[1..];
      assert multiset(s) == multiset([s[0]]) + multiset(s[1..]);
    }
  }

  /** `FilterCounts` for every element at once. */
  lemma FilterCountsAll<T(!new)>(s: seq<T>, p: T -> bool)
    ensures forall x :: multiset(Filter(s, p))[x] == if p(x) then multiset(s)[x] else 0
  {
    forall x
      ensures multiset(Filter(s, p))[x] == if p(x) then multiset(s)[x] else 0
    {
      FilterCounts(s, p, x);
    }
  }

  /** Some element passes exactly when some position satisfies the test. */
  lemma FilterNonEmpty<T(!new)>(s: seq<T>, p: T -> bool)
    ensures |Filter(s, p)| >= 1 <==> exists i :: 0 <= i < |s| && p(s[i])
  {
    if |Filter(s, p)| >= 1 {
      assert Filter(s, p)[0] in Filter(s, p);
      var i :| 0 <= i < |s| && s[i] == Filter(s, p)[0];
    }
    if exists i :: 0 <= i < |s| && p(s[i]) {
      var i :| 0 <= i < |s| && p(s[i]);
      assert s[i] in Filter(s, p);
    }
  }

  /** Two distinct positions of `s` satisfy `p`. */
  predicate PassesTwice<T>(s: seq<T>, p: T -> bool) {
    exists i, j :: 0 <= i < j < |s| && p(s[i]) && p(s[j])
  }

  lemma {:induction false} PassesTwiceFilter<T(!new)>(s: seq<T>, p: T -> bool)
    requires PassesTwice(s, p)
    ensures |Filter(s, p)| >= 2
  {
    var i, j :| 0 <= i < j < |s| && p(s[i]) && p(s[j]);
    var t := s[1..];
    if i == 0 {
      assert p(t[j - 1]);
      FilterNonEmpty(t, p);
    } else {
      assert p(t[i - 1]) && p(t[j - 1]);
      assert PassesTwice(t, p);
      PassesTwiceFilter(t, p);
    }
  }

  lemma {:induction false} FilterPassesTwice<T(!new)>(s: seq<T>, p: T -> bool)
    requires |Filter(s, p)| >= 2
    ensures PassesTwice(s, p)
  {
    var t := s[1..];
    if p(s[0]) {
      FilterNonEmpty(t, p);
      var k :| 0 <= k < |t| && p(t[k]);
      assert p(s[0]) && p(s[k + 1]);
    } else {
      assert Filter(s, p) == Filter(t, p);
      FilterPassesTwice(t, p);
      var i, j :| 0 <= i < j < |t| && p(t[i]) && p(t[j]);
      assert p(s[i + 1]) && p(s[j + 1]);
    }
  }

  /** Two or more elements pass exactly when two distinct positions satisfy the test. */
  lemma FilterTwo<T(!new)>(s: seq<T>, p: T -> bool)
    ensures |Filter(s, p)| >= 2 <==> PassesTwice(s, p)
  {
    if PassesTwice(s, p) {
      PassesTwiceFilter(s, p);
    }
    if |Filter(s, p)| >= 2 {
      FilterPassesTwice(s, p);
    }
  }
}

=== FILE: sign_in.dfy ===
/** The sign-in form: the loading guard, the toast chosen for an error message, and the toast
    list's append and remove. */
module SignIn {

  import opened Wrappers
  import opened Seqs
  import opened Text

  datatype ToastKind = Info | Error

  datatype Toast = Toast(id: int, message: string, kind: ToastKind, duration: nat)

  datatype Form = Form(email: string, password: string, loading: bool, toasts: seq<Toast>)

  datatype Credentials = Credentials(email: string, password: string)

  const InvalidMessage := "Invalid credentials. Please check your password."
  const NotFoundMessage := "Account not found. Please sign up."

  /** The toast for a failed sign-in: an error shown for four seconds when the lower-cased
      message mentions "invalid", otherwise an info toast for three seconds. */
  function ToastFor(message: string, id: int): (t: Toast)
    ensures t.id == id
    ensures t.kind == Error <==> Contains(ToLower(message), "invalid")
    ensures t.kind == Error ==> t.message == InvalidMessage && t.duration == 4000
    ensures t.kind == Info ==> t.message == NotFoundMessage && t.duration == 3000
  {
    if Contains(ToLower(message), "invalid") then Toast(id, InvalidMessage, Error, 4000)
    else Toast(id, NotFoundMessage, Info, 3000)
  }

  /** Letter case in the server's message does not change the toast. */
  lemma ToastIgnoresCase(message: string, id: int)
    ensures ToastFor(ToLower(message), id) == ToastFor(message, id)
  {
    ToLowerIdempotent(message);
  }

  /** `addToast`: append with the current time as id. */
  function AddToast(toasts: seq<Toast>, t: Toast): (r: seq<Toast>)
    ensures |r| == |toasts| + 1 && r[..|toasts|] == toasts && r[|toasts|] == t
  {
    toasts + [t]
  }

  /** `removeToast` and the timer that expires a toast: drop every toast with that id, keeping
      the rest in order. */
  function RemoveToast(toasts: seq<Toast>, id: int): (r: seq<Toast>)
    ensures forall t :: t in r <==> t in toasts && t.id != id
    ensures forall t :: multiset(r)[t] == if t.id != id then multiset(toasts)[t] else 0
    ensures IsSubsequence(r, toasts)
  {
    FilterIsSubsequence(toasts, (t: Toast) => t.id != id);
    FilterCountsAll(toasts, (t: Toast) => t.id != id);
    Filter(toasts, (t: Toast) => t.id != id)
  }

  /** Removing a toast just added restores the list, when no older toast shares its id. */
  lemma AddThenRemove(toasts: seq<Toast>, t: Toast)
    requires forall i :: 0 <= i < |toasts| ==> toasts[i].id != t.id
    ensures RemoveToast(AddToast(toasts, t), t.id) == toasts
  {
    var p := (x: Toast) => x.id != t.id;
    FilterAppend(toasts, [t], p);
    FilterKeepsAll(toasts, p);
    assert Filter([t], p) == [];
  }

  /** Ids are millisecond timestamps, so two toasts raised in the same millisecond go away
      together: removing one removes the other. */
  lemma SameIdRemovedTogether(toasts: seq<Toast>, a: Toast, b: Toast)
    requires a in toasts && b in toasts && a.id == b.id
    ensures a !in RemoveToast(toasts, a.id) && b !in RemoveToast(toasts, a.id)
  {
  }

  /** Pressing submit: ignored while a request is in flight; otherwise the form enters the
      loading state and sends its email and password. */
  function Submit(f: Form): (r: (Form, Option<Credentials>))
    ensures f.loading ==> r == (f, None)
    ensures !f.loading ==> r.0 == f.(loading := true) && r.1 == Some(Credentials(f.email, f.password))
  {
    if f.loading then (f, None) else (f.(loading := true), Some(Credentials(f.email, f.password)))
  }

  /** The reply: loading ends; an error adds the matching toast and the parent is not told;
      success tells the parent (`onSuccess`) and adds no toast. */
  function Finish(f: Form, error: Option<string>, now: int): (r: (Form, bool))
    ensures !r.0.loading && r.0.email == f.email && r.0.password == f.password
    ensures r.1 <==> error.None?
    ensures error.None? ==> r.0.toasts == f.toasts
    ensures error.Some? ==> r.0.toasts == f.toasts + [ToastFor(error.value, now)]
  {
    match error
    case None => (f.(loading := false), true)
    case Some(m) => (f.(loading := false, toasts := AddToast(f.toasts, ToastFor(m, now))), false)
  }

  /** A second press while the first request is pending sends nothing, and once the reply is
      handled the button is enabled again. */
  lemma DoubleSubmitSendsOnce(f: Form, error: Option<string>, now: int)
    requires !f.loading
    ensures var (g, sent) := Submit(f);
            var (h, again) := Submit(g);
            && sent.Some? && again.None? && h == g
            && !Finish(h, error, now).0.loading
  {
  }
}

=== FILE: task_grid.dfy ===
/** The task grid: one row per task, one cell per day of the window. A cell for a day after today
    cannot be toggled, and a cell shows a check mark only for an explicit `true`. */
module TaskGrid {

  import opened Wrappers
  import opened Calendar
  import opened IsoDates
  import Api

  /** A key of a task's completion map. The dashboard writes ISO keys (`YYYY-MM-DD`); a key built
      with `toLocaleDateString()` (e.g. `1/5/2024` in the en-US locale) is a different string, so
      it is a different key even for the same day. */
  datatype DateKey = IsoKey(day: Day) | LocaleKey(day: Day)

  datatype Task = Task(id: Api.TaskId, title: string, completionByDate: map<DateKey, bool>)

  /** One column header of the grid. */
  datatype GridDay = GridDay(date: Day, dayName: string, dayNum: int)

  /** The header highlight: the ISO texts of the day and of today are equal. */
  predicate IsToday(day: Day, today: Day)
    requires InIsoRange(day) && InIsoRange(today)
  {
    IsoString(day) == IsoString(today)
  }

  /** The future test: the day's ISO text sorts after today's. */
  predicate IsFuture(day: Day, today: Day)
    requires InIsoRange(day) && InIsoRange(today)
  {
    LexLess(IsoString(today), IsoString(day))
  }

  /** The string tests decide exactly the day order. */
  lemma TodayAndFutureFollowDayOrder(day: Day, today: Day)
    requires InIsoRange(day) && InIsoRange(today)
    ensures IsToday(day, today) <==> day == today
    ensures IsFuture(day, today) <==> day > today
  {
    IsoOrder(day, today);
    IsoOrder(today, day);
  }

  /** The check mark: only a stored `true` counts; an absent key and `false` look the same. */
  predicate IsCompleted(task: Task, day: Day) {
    IsoKey(day) in task.completionByDate && task.completionByDate[IsoKey(day)] == true
  }

  /** A stored `true` shows the check mark; a stored `false` and a missing entry both show an
      empty cell, and entries under other keys do not matter. */
  lemma CompletedOnlyWhenTrue(task: Task, day: Day, key: DateKey, v: bool)
    ensures IsCompleted(task.(completionByDate := task.completionByDate[IsoKey(day) := v]), day) == v
    ensures !IsCompleted(task.(completionByDate := task.completionByDate - {IsoKey(day)}), day)
    ensures key != IsoKey(day) ==>
              IsCompleted(task.(completionByDate := task.completionByDate[key := v]), day) == IsCompleted(task, day)
  {
  }

  /** What a click on a cell asks the dashboard to do. */
  datatype ToggleCall = ToggleCall(taskId: Api.TaskId, date: Day)

  /** A click on the cell of `task` and `day`: nothing for a future day, otherwise a toggle
      request carrying the task id and the cell's own date. */
  function CellClick(task: Task, day: Day, today: Day): (call: Option<ToggleCall>)
    requires InIsoRange(day) && InIsoRange(today)
    ensures call.None? <==> day > today
    ensures call.Some? ==> call.value.taskId == task.id && call.value.date == day
  {
    TodayAndFutureFollowDayOrder(day, today);
    if IsFuture(day, today) then None else Some(ToggleCall(task.id, day))
  }

  /** The cell button is disabled for exactly the days after today. */
  function CellDisabled(day: Day, today: Day): (disabled: bool)
    requires InIsoRange(day) && InIsoRange(today)
    ensures disabled <==> day > today
  {
    TodayAndFutureFollowDayOrder(day, today);
    IsFuture(day, today)
  }
}

=== FILE: text.dfy ===
/** The string operations the application applies to user input: `trim`, `toLowerCase` and `includes`. */
module Text {

  /** The white-space characters removed by `String.prototype.trim` (the Unicode space separators
      beyond U+00A0 are not modelled). */
  predicate IsSpace(c: char) {
    c == ' ' || c == '\t' || c == '\n' || c == '\r' || c == '\U{0B}' || c == '\U{0C}'
    || c == '\U{A0}' || c == '\U{FEFF}' || c == '\U{2028}' || c == '\U{2029}'
  }

  predicate AllSpace(s: string) {
    forall i :: 0 <= i < |s| ==> IsSpace(s[i])
  }

  /** `s` without its leading white space. */
  function TrimStart(s: string): (r: string)
    ensures |r| <= |s| && r == s[|s| - |r|..]
    ensures AllSpace(s[..|s| - |r|])
    ensures |r| == 0 || !IsSpace(r[0])
  {
    if |s| > 0 && IsSpace(s[0]) then TrimStart(s[1..]) else s
  }

  /** `s` without its trailing white space. */
  function TrimEnd(s: string): (r: string)
    ensures |r| <= |s| && r == s[..|r|]
    ensures AllSpace(s[|r|..])
    ensures |r| == 0 || !IsSpace(r[|r| - 1])
  {
    if |s| > 0 && IsSpace(s[|s| - 1]) then
      var r := TrimEnd(s[..|s| - 1]);
      assert s[|r|..] == s[..|s| - 1][|r|..] + [s[|s| - 1]];
      r
    else s
  }

  /** `s.trim()`: the middle of `s` between its leading and trailing white space. */
  function Trim(s: string): (r: string)
    ensures |r| == 0 || (!IsSpace(r[0]) && !IsSpace(r[|r| - 1]))
  {
    TrimStart(TrimEnd(s))
  }

  /** `s.trim() !== ''` holds exactly when `s` has a character that is not white space. */
  lemma TrimEmptyIffBlank(s: string)
    ensures Trim(s) == "" <==> AllSpace(s)
  {
    var e := TrimEnd(s);
    if |e| > 0 {
      assert s[|e| - 1] == e[|e| - 1];
    } else {
      assert s[|e|..] == s;
    }
  }

  /** ASCII `toLowerCase`: upper-case Latin letters become lower-case, everything else is kept. */
  function ToLowerChar(c: char): (r: char)
    ensures !('A' <= r <= 'Z')
    ensures !('A' <= c <= 'Z') ==> r == c
  {
    if 'A' <= c <= 'Z' then (c as int - 'A' as int + 'a' as int) as char else c
  }

  function ToLower(s: string): (r: string)
    ensures |r| == |s|
    ensures forall i :: 0 <= i < |s| ==> r[i] == ToLowerChar(s[i])
  {
    if |s| == 0 then "" else [ToLowerChar(s[0])] + ToLower(s[1..])
  }

  /** Lower-casing twice changes nothing more. */
  lemma ToLowerIdempotent(s: string)
    ensures ToLower(ToLower(s)) == ToLower(s)
  {
  }

  /** `w` occurs in `s` starting at index `i`. */
  predicate OccursAt(s: string, w: string, i: int) {
    0 <= i && i + |w| <= |s| && s[i..i + |w|] == w
  }

  /** `s.includes(w)`: `w` occurs somewhere in `s`. */
  function Contains(s: string, w: string): (b: bool)
    ensures b <==> exists i :: OccursAt(s, w, i)
  {
    if |s| < |w| then false
    else if s[..|w|] == w then
      assert OccursAt(s, w, 0);
      true
    else
      var b := Contains(s[1..], w);
      assert forall i :: OccursAt(s, w, i) ==> i >= 1 && OccursAt(s[1..], w, i - 1) by {
        forall i | OccursAt(s, w, i)
          ensures i >= 1 && OccursAt(s[1..], w, i - 1)
        {
          assert s[1..][i - 1..i - 1 + |w|] == s[i..i + |w|];
        }
      }
      assert b ==> exists i :: OccursAt(s, w, i) by {
        if b {
          var j :| OccursAt(s[1..], w, j);
          assert s[j + 1..j + 1 + |w|] == s[1..][j..j + |w|];
          assert OccursAt(s, w, j + 1);
        }
      }
      b
  }
}

=== FILE: today_journal.dfy ===
/** The editor for today's journal entry: local title and content, a saved flag, and the effect
    that copies the entry passed in by the dashboard into the local fields. */
module TodayJournal {

  import opened Calendar

  datatype JournalEntry = JournalEntry(date: Day, content: string, title: string)

  /** The editor's local state. `seen` is the entry as of the last run of the sync effect. */
  datatype Editor = Editor(localTitle: string, localContent: string, isSaved: bool, seen: JournalEntry)

  /** What the save button passes up: content first, then title. */
  datatype SaveCall = SaveCall(content: string, title: string)

  /** The first render: the local fields hold the entry and nothing is unsaved. */
  function Init(entry: JournalEntry): (e: Editor)
    ensures Shows(e, entry) && e.seen == entry && SaveDisabled(e)
  {
    Editor(entry.title, entry.content, true, entry)
  }

  /** The editor's fields show exactly `entry`'s title and content. */
  predicate Shows(e: Editor, entry: JournalEntry) {
    e.localTitle == entry.title && e.localContent == entry.content
  }

  /** Typing in the title field. */
  function EditTitle(e: Editor, value: string): (r: Editor)
    ensures r.localTitle == value && r.localContent == e.localContent && !r.isSaved && r.seen == e.seen
  {
    e.(localTitle := value, isSaved := false)
  }

  /** Typing in the content field. */
  function EditContent(e: Editor, value: string): (r: Editor)
    ensures r.localContent == value && r.localTitle == e.localTitle && !r.isSaved && r.seen == e.seen
  {
    e.(localContent := value, isSaved := false)
  }

  /** The save button: passes the local content and title up and marks the editor saved. */
  function Save(e: Editor): (r: (Editor, SaveCall))
    ensures r.0.isSaved && Shows(r.0, JournalEntry(e.seen.date, r.1.content, r.1.title))
    ensures r.1.content == e.localContent && r.1.title == e.localTitle
    ensures r.0.seen == e.seen
  {
    (e.(isSaved := true), SaveCall(e.localContent, e.localTitle))
  }

  /** The save button is disabled exactly while nothing is unsaved. */
  predicate SaveDisabled(e: Editor) {
    e.isSaved
  }

  /** Any edit enables the save button, and saving disables it again with the edited text sent. */
  lemma EditThenSave(e: Editor, title: string, content: string)
    ensures var edited := EditContent(EditTitle(e, title), content);
            !SaveDisabled(edited)
            && SaveDisabled(Save(edited).0)
            && Save(edited).1 == SaveCall(content, title)
  {
  }

  /** The sync effect as written: it runs only when the entry's date changes, and then copies the
      entry's title and content; the saved flag is left alone. */
  function SyncOnDate(e: Editor, entry: JournalEntry): (r: Editor)
    ensures entry.date != e.seen.date ==> Shows(r, entry)
    ensures entry.date == e.seen.date ==> Shows(r, JournalEntry(entry.date, e.localContent, e.localTitle))
    ensures r.isSaved == e.isSaved && r.seen == entry
  {
    if entry.date != e.seen.date then e.(localTitle := entry.title, localContent := entry.content, seen := entry)
    else e.(seen := entry)
  }

  /** The sync effect keyed on the whole entry: whenever the entry passed in changes, its title
      and content are copied. */
  function SyncOnEntry(e: Editor, entry: JournalEntry): (r: Editor)
    ensures entry != e.seen ==> Shows(r, entry)
    ensures entry == e.seen ==> r == e
    ensures r.isSaved == e.isSaved && r.seen == entry
  {
    if entry != e.seen then e.(localTitle := entry.title, localContent := entry.content, seen := entry)
    else e
  }

  /** The dashboard first passes an empty entry for today and later the entry loaded from the
      server, under the same date. With the date-keyed effect the loaded text never reaches the
      fields. */
  lemma LoadedEntryHidden(today: Day, title: string, content: string)
    requires title != "" || content != ""
    ensures var placeholder := JournalEntry(today, "", "");
            var loaded := JournalEntry(today, content, title);
            !Shows(SyncOnDate(Init(placeholder), loaded), loaded)
  {
  }

  /** With the entry-keyed effect the loaded text is shown as soon as it arrives. */
  lemma LoadedEntryShown(today: Day, title: string, content: string)
    ensures var placeholder := JournalEntry(today, "", "");
            var loaded := JournalEntry(today, content, title);
            Shows(SyncOnEntry(Init(placeholder), loaded), loaded)
  {
  }

  /** Both effects agree when the date changes. */
  lemma SyncAgreeOnNewDate(e: Editor, entry: JournalEntry)
    requires entry.date != e.seen.date
    ensures SyncOnDate(e, entry) == SyncOnEntry(e, entry)
  {
  }
}

=== FILE: wrappers.dfy ===
/** Option and Result, the failure-carrying values used across the model. */
module Wrappers {

  datatype Option<+T> = None | Some(value: T) {
    function GetOr(default: T): T {
      match this
      case Some(v) => v
      case None => default
    }
  }

  datatype Result<+R, +E> = Success(value: R) | Failure(error: E) {
    function ToOption(): Option<R> {
      match this
      case Success(v) => Some(v)
      case Failure(_) => None
    }
  }
}
